=== FILE: README.md ===
# pcommandbot command dispatch, modelled in Dafny

pcommandbot is an IRC bot. It answers commands written in channel and private
messages. A message can carry several commands. Each command starts with a
configurable prefix (default `!`), names a command, and is optionally followed
by whitespace and an argument. An optional argument terminator ends the
argument early so that another command can follow.

A command name is looked up case-insensitively:

- first among the synonym groups, which call each of their targets in turn;
- then among the responders.

A responder is either a fixed answer or the core command. The core command has
these subcommands: `about`, `auth`, `join`, `part`, `quit`, `time` and `echo`.
`join`, `part` and `quit` are guarded by a one-shot password authentication.

Every non-empty answer is prefixed with the nicks the message mentioned
("a, b: "). When a channel message gets no answer, the bot may reply to being
mentioned. When a private message gets no answer, it may send a default reply.

The Dafny modules follow the program's structure:

| file | module | models |
|---|---|---|
| wrappers.dfy | `Wrappers` | `Option` (a Java null) and `Result` (an exception) |
| text.dfy | `Text` | `Utilities`: the whitespace class, `supertrim`, `toMentionPrefix`, English lowercasing |
| extractor.dfy | `Extractor` | the command pattern of `processCommands`, as an explicit leftmost-match scanner |
| mentions.dfy | `Mentions` | `getMentions` and the nick-token split |
| responders.dfy | `Responders` | `CoreCommandResponder` and `FixedResponder` |
| bot.dfy | `Dispatch` | `processCommands`, `onMessage`, `onPrivateMessage` |
| config.dfy | `Config` | the command tables built by `loadConfiguration`, `loadFixedCommands` and `loadSynonymousCommands` |
| normalizedkeymap.dfy | `NormalizedKeys` | `NormalizedKeyMap` |

The command pattern is
`quote(prefix) ([^space-or-control]+?) (WHITESPACE (.*?))? (quote(terminator)|$)`,
compiled with DOTALL and applied with `find()`. The model states what one
match is through the ghost predicate `Extractor.Parses`:

- the lazy command group stops at the first place where the rest can match;
- `WHITESPACE` is greedy;
- the lazy argument stops at the first terminator occurrence or at Java's `$`.

Java's `$` without MULTILINE also matches before a final line terminator, and
the model includes that case. The scanner `HitAt` computes this match, and
`HitAtParses` proves that it meets the predicate. Scanning resumes at the end
of the previous match.

## Model

| member | source | states |
|---|---|---|
| Text.WhitespaceRunEnd | tk/halfgray/pcommandbot/Utilities.java:15 | The end of a maximal run of space or ISO-control characters: everything before it is whitespace, and the character at it is not. |
| Text.Supertrim | tk/halfgray/pcommandbot/Utilities.java:25-29 | The result is a suffix of the input. The part removed is all whitespace. The result is empty or starts with a non-whitespace character. |
| Text.SupertrimIdempotent | tk/halfgray/pcommandbot/Utilities.java:25-29 | Supertrimming twice gives the same result as supertrimming once. |
| Text.SupertrimAllWhitespace | tk/halfgray/pcommandbot/Utilities.java:25-29 | A string made only of whitespace supertrims to the empty string. |
| Text.SupertrimKeepsTrailing | tk/halfgray/pcommandbot/Utilities.java:26 | The greedy `(.*)` group keeps trailing whitespace: a string that starts with a non-whitespace character is returned unchanged. |
| Text.SupertrimTrailingBlankSurvives | tk/halfgray/pcommandbot/Utilities.java:26 | Concrete witnesses: `"a "` and `" \t a "` both supertrim to `"a "`, keeping the trailing blank. |
| Text.Lower | tk/halfgray/pcommandbot/PCommandBot.java:718 | English lowercasing keeps the length and lowercases each character on its own (ASCII letters). |
| Text.LowerIdempotent | tk/halfgray/pcommandbot/PCommandBot.java:718 | Lowercasing twice gives the same result as lowercasing once. |
| Text.LowerKeepsWhitespace | tk/halfgray/pcommandbot/PCommandBot.java:718 | Lowercasing maps whitespace to whitespace and non-whitespace to non-whitespace. |
| Text.LowerAppend | tk/halfgray/pcommandbot/PCommandBot.java:718 | Lowercasing distributes over concatenation. |
| Text.MentionPrefix | tk/halfgray/pcommandbot/Utilities.java:38-49 | No mentions give `""`. Otherwise the prefix ends in `": "`. |
| Text.SeparatedSnoc | tk/halfgray/pcommandbot/Utilities.java:43-45 | Each loop step appends `", "` and the next nick to what the earlier nicks produced. |
| Text.JoinCommaSpelled | tk/halfgray/pcommandbot/Utilities.java:42-45 | The joined nicks are the first nick followed by `", "` and each later nick, in order. |
| Text.MentionPrefixSpelled | tk/halfgray/pcommandbot/Utilities.java:38-49 | A non-empty prefix is exactly the comma-joined nicks followed by `": "`. |
| Text.MentionPrefixExample | tk/halfgray/pcommandbot/Utilities.java:32-49 | `["a","b","c"]` gives `"a, b, c: "`, so an answer `"hi"` is sent as `"a, b, c: hi"`. |
| Extractor.CommandEnd | tk/halfgray/pcommandbot/PCommandBot.java:697 | The lazy command group stops at the first position where the optional argument or the terminator can follow. The group is at least one character long and contains no whitespace. |
| Extractor.ArgumentEnd | tk/halfgray/pcommandbot/PCommandBot.java:700 | The lazy argument group stops at the first position where a terminator occurrence or Java's `$` holds. |
| Extractor.NextMatch | tk/halfgray/pcommandbot/PCommandBot.java:717 | `find()` returns the leftmost position at or after the start where the pattern matches, or nothing when it matches nowhere. |
| Extractor.HitAt | tk/halfgray/pcommandbot/PCommandBot.java:689-705 | A match starts where it was found, ends after it, and its spans lie inside the message. |
| Extractor.Hits | tk/halfgray/pcommandbot/PCommandBot.java:717 | The successive matches are in order, do not overlap, and each is the match at its own start. |
| Extractor.HitAtParses | tk/halfgray/pcommandbot/PCommandBot.java:689-705 | The match computed at a position meets the regular-expression semantics: prefix, lazy command, optional greedy whitespace and lazy argument, then a terminator or `$`. |
| Extractor.HitsLeftmost | tk/halfgray/pcommandbot/PCommandBot.java:717 | Each successive `find()` is the leftmost match at or after the end of the previous one. No match starts in between. |
| Extractor.ExtractFromHits | tk/halfgray/pcommandbot/PCommandBot.java:717-726 | The extracted commands are exactly the commands of the listed matches, one per match, in order. |
| Extractor.CommandOf | tk/halfgray/pcommandbot/PCommandBot.java:718-726 | The name is group 1 lowercased: it has the group's length and is already lowercase. Without group 3 the argument is `""`. With group 3 it is a suffix of that group that is empty or starts with a non-whitespace character. |
| Extractor.Extract | tk/halfgray/pcommandbot/PCommandBot.java:717-726 | The commands of a message are the commands of the chain of `find()` matches from its start: one per match, in order. |
| Extractor.ExtractFromStep | tk/halfgray/pcommandbot/PCommandBot.java:717-748 | An unfolding of `ExtractFrom` named for the proofs that use it: one `find()` step gives the command of the leftmost match, then the commands found after its end. |
| Extractor.HitName | tk/halfgray/pcommandbot/PCommandBot.java:718 | The name of a single match is lowercase, non-empty and free of whitespace. |
| Extractor.ExtractedNamesFrom | tk/halfgray/pcommandbot/PCommandBot.java:717-726 | Every name extracted from a scan position on is lowercase, non-empty and free of whitespace. |
| Extractor.ExtractedNames | tk/halfgray/pcommandbot/PCommandBot.java:718-726 | Every extracted name is lowercase, non-empty and free of whitespace. |
| Extractor.LineTerminatorIsWhitespace | tk/halfgray/pcommandbot/PCommandBot.java:689-705 | The line terminators that Java's `$` may skip are all in the whitespace class. |
| Extractor.DollarTail | tk/halfgray/pcommandbot/PCommandBot.java:693 | Only line-terminator characters follow a position where `$` holds. |
| Extractor.ArgumentIsRawGroup | tk/halfgray/pcommandbot/PCommandBot.java:720-726 | The supertrim applied to group 3 never changes it, because the greedy whitespace group has already consumed the leading whitespace. |
| Extractor.NoTerminatorMatchRunsToEnd | tk/halfgray/pcommandbot/PCommandBot.java:691-693 | With an empty terminator, only whitespace can follow a match. |
| Extractor.NoMatchInWhitespaceTail | tk/halfgray/pcommandbot/PCommandBot.java:717 | No match starts where only whitespace remains. |
| Extractor.NoTerminatorAtMostOneCommand | tk/halfgray/pcommandbot/PCommandBot.java:691-693 | Without a terminator, a message yields at most one command. |
| Extractor.HitAtFromPositions | tk/halfgray/pcommandbot/PCommandBot.java:689-705 | Given a command end, a whitespace run and a terminator position that have the defining properties, the match is built from exactly those positions. |
| Extractor.ExtractFromMatch | tk/halfgray/pcommandbot/PCommandBot.java:717-748 | An unfolding of `ExtractFrom` named for the proofs that use it: when the pattern matches where scanning starts, the first command comes from that match and the rest from scanning after it. |
| Extractor.NoDollarFarFromEnd | tk/halfgray/pcommandbot/PCommandBot.java:693 | `$` never holds three or more characters before the end of the input. |
| Extractor.DollarOnlyAtEnd | tk/halfgray/pcommandbot/PCommandBot.java:693 | When the last character is not a line terminator, `$` holds only at the very end. |
| Extractor.CommandCannotStop | tk/halfgray/pcommandbot/PCommandBot.java:697 | Inside a run of non-whitespace characters with no terminator occurrence, the lazy command group cannot stop. |
| Extractor.LastCommandAt | tk/halfgray/pcommandbot/PCommandBot.java:689-726 | A command, a whitespace run and an argument running to the end, with no terminator after the prefix and no trailing line terminator, yield exactly that lowercased name and that argument (`P cmd arg1 arg2`). |
| Extractor.LastHitAt | tk/halfgray/pcommandbot/PCommandBot.java:689-705 | The match of such a final command has its argument running to the end of the message. |
| Extractor.TerminatedHitAt | tk/halfgray/pcommandbot/PCommandBot.java:689-705 | A command closed by the first terminator occurrence ends its argument there. The next scan resumes after the terminator. |
| Extractor.CommandOfKnownHit | tk/halfgray/pcommandbot/PCommandBot.java:717-726 | A match that is known by its positions gives the command spelled by those positions, followed by the commands after it. |
| Extractor.TerminatedCommandAt | tk/halfgray/pcommandbot/PCommandBot.java:689-726 | A command whose argument is closed by the first terminator occurrence yields that lowercased name and that argument, followed by the commands found right after the terminator (`P cmda argA T P cmdb argB`). |
| Mentions.NickRunEnd | tk/halfgray/pcommandbot/PCommandBot.java:49 | The end of a maximal run of nick characters: everything before it is a nick character, and the character at it is not. |
| Mentions.NickTokens | tk/halfgray/pcommandbot/PCommandBot.java:656 | Tokens are separated by at least one character, so a message of length n splits into at most (n + 1) / 2 tokens. |
| Mentions.TokensWellFormed | tk/halfgray/pcommandbot/PCommandBot.java:656 | The split gives non-empty tokens made only of nick characters. |
| Mentions.WordIsToken | tk/halfgray/pcommandbot/PCommandBot.java:656 | A lone word of nick characters is its own single token. |
| Mentions.NickRunEndAll | tk/halfgray/pcommandbot/PCommandBot.java:49 | A tail made only of nick characters is one run to the end. |
| Mentions.NoNickCharsNoTokens | tk/halfgray/pcommandbot/PCommandBot.java:656 | A message without nick characters has no tokens. |
| Mentions.TokensSplit | tk/halfgray/pcommandbot/PCommandBot.java:656 | Splitting at a separator character: the tokens of `a + c + b` are the tokens of `a` followed by the tokens of `b`. |
| Mentions.TokensOfWords | tk/halfgray/pcommandbot/PCommandBot.java:656 | Two words joined by a separator split into exactly those two words. |
| Mentions.LowerKeepsNickChar | tk/halfgray/pcommandbot/PCommandBot.java:49 | Lowercasing maps nick characters to nick characters and other characters to other characters. |
| Mentions.LowerAll | tk/halfgray/pcommandbot/PCommandBot.java:770 | Pointwise lowercasing of a token list. |
| Mentions.TokensOfLower | tk/halfgray/pcommandbot/PCommandBot.java:770 | Splitting a lowercased message gives the lowercased tokens of the message. |
| Mentions.LowerRunEnd | tk/halfgray/pcommandbot/PCommandBot.java:770 | Lowercasing does not move the end of a nick run. |
| Mentions.KnownTokens | tk/halfgray/pcommandbot/PCommandBot.java:657-672 | The filter never produces more entries than it is given. |
| Mentions.MentionsIn | tk/halfgray/pcommandbot/PCommandBot.java:655-673 | Every mention is a non-empty nick token whose lowercase form is a user of the channel. |
| Mentions.KnownMentionsWellFormed | tk/halfgray/pcommandbot/PCommandBot.java:657-672 | Filtering well-formed tokens keeps only well-formed tokens of known users. |
| Mentions.KnownTokensMembership | tk/halfgray/pcommandbot/PCommandBot.java:657-672 | A token survives the filter if and only if it is in the list and its lowercase form is a user. |
| Mentions.KnownTokensCount | tk/halfgray/pcommandbot/PCommandBot.java:657-672 | A kept token keeps every occurrence (duplicates included). A dropped token has none. |
| Mentions.KnownTokensAppend | tk/halfgray/pcommandbot/PCommandBot.java:657-672 | The filter keeps order: filtering a concatenation gives the filtered parts, one after the other. |
| Mentions.MentionsMembership | tk/halfgray/pcommandbot/PCommandBot.java:655-673 | A string is a mention if and only if it is a token of the message and its lowercase form is a user. |
| Mentions.MentionsSplit | tk/halfgray/pcommandbot/PCommandBot.java:655-673 | The mentions of `a + c + b`, with `c` not a nick character, are the mentions of `a` followed by those of `b`. Mentions are listed in message order. |
| Mentions.MentionsCount | tk/halfgray/pcommandbot/PCommandBot.java:655-673 | A nick mentioned twice is listed twice, in its original case. |
| Mentions.MentionsOfRepeatedWord | tk/halfgray/pcommandbot/PCommandBot.java:655-673 | Two spellings of one known nick, separated by a non-nick character, are both listed, as written. |
| Mentions.BotMentionedMeans | tk/halfgray/pcommandbot/PCommandBot.java:770-772 | The mentioned check holds if and only if the bot's lowercase nick is a channel user and some token of the message lowercases to it. |
| Mentions.BotMentioned | tk/halfgray/pcommandbot/PCommandBot.java:770-772 | The bot is mentioned only if its lowercase nick is a user of the channel. |
| Mentions.LowerAllMembership | tk/halfgray/pcommandbot/PCommandBot.java:770 | A string is among the lowercased tokens if and only if some token lowercases to it. |
| Responders.NewCore | tk/halfgray/pcommandbot/CoreCommandResponder.java:49-53 | A new core responder has the empty token. Its password is supertrimmed, so it does not start with whitespace. |
| Responders.Authenticate | tk/halfgray/pcommandbot/CoreCommandResponder.java:131-138 | It succeeds if and only if the password matches. On success the token becomes the lowercased user; on failure nothing changes. |
| Responders.IsAuthenticated | tk/halfgray/pcommandbot/CoreCommandResponder.java:149-156 | It succeeds if and only if the token is the lowercased user. A success consumes the token; a failure changes nothing. |
| Responders.OneShot | tk/halfgray/pcommandbot/CoreCommandResponder.java:149-156 | An authentication is good for exactly one check. |
| Responders.EmptyTokenQuirk | tk/halfgray/pcommandbot/CoreCommandResponder.java:49-53 | A fresh responder accepts a check for the empty user name, because the initial token is `""`, and the check leaves it as it was. |
| Responders.EmptyUserPassesWithoutToken | tk/halfgray/pcommandbot/CoreCommandResponder.java:149-156 | While no authentication is pending, a check for the empty user name passes every time and leaves the state unchanged. |
| Responders.AuthenticationScenario | tk/halfgray/pcommandbot/CoreCommandResponder.java:131-156 | Alice authenticates. Bob fails with a wrong password and leaves her token alone. Alice passes one check and then fails the next. |
| Responders.FirstWhitespace | tk/halfgray/pcommandbot/CoreCommandResponder.java:57 | The first whitespace position at or after a start. |
| Responders.SplitSubcommand | tk/halfgray/pcommandbot/CoreCommandResponder.java:57 | The split into at most two parts: the first part has no whitespace, and the input is the parts joined by a non-empty whitespace run. |
| Responders.SplitOfWords | tk/halfgray/pcommandbot/CoreCommandResponder.java:57-62 | A word, a whitespace run and a rest split into exactly the word and the rest. |
| Responders.SplitOfWord | tk/halfgray/pcommandbot/CoreCommandResponder.java:57-62 | A single word splits into itself. |
| Responders.Subcommand | tk/halfgray/pcommandbot/CoreCommandResponder.java:57-58 | The subcommand is lowercase and contains no whitespace. |
| Responders.Subargument | tk/halfgray/pcommandbot/CoreCommandResponder.java:57-62 | The subargument is a suffix of the argument that is empty or starts with a non-whitespace character. |
| Responders.SubcommandOfWords | tk/halfgray/pcommandbot/CoreCommandResponder.java:57-62 | For a word, a whitespace run and a rest, the subcommand is the lowercased word and the subargument is the rest. |
| Responders.SubcommandOfWord | tk/halfgray/pcommandbot/CoreCommandResponder.java:57-62 | For a single word, the subcommand is the lowercased word and the subargument is `""`. |
| Responders.FirstWhitespaceAt | tk/halfgray/pcommandbot/CoreCommandResponder.java:57 | A position with the defining properties is the first whitespace position. |
| Responders.WhitespaceRunEndAt | tk/halfgray/pcommandbot/Utilities.java:15 | A position with the defining properties is the end of the whitespace run. |
| Responders.CoreRespond | tk/halfgray/pcommandbot/CoreCommandResponder.java:55-120 | The password never changes. An effect such as quit, join or part happens only when the sender's token matched, and the token is then consumed. The token is otherwise set only by a private `auth`. |
| Responders.StatelessAnswers | tk/halfgray/pcommandbot/CoreCommandResponder.java:57-119 | An empty subcommand, an unknown one, `about`, `echo` and `time` give their fixed or echoed answers and change nothing. |
| Responders.PublicAuthRefused | tk/halfgray/pcommandbot/CoreCommandResponder.java:65-68 | `auth` in a channel is refused and changes nothing. |
| Responders.PrivateAuth | tk/halfgray/pcommandbot/CoreCommandResponder.java:69-75 | A private `auth` with the right password sets the token; with a wrong one it changes nothing. |
| Responders.PromptKeepsToken | tk/halfgray/pcommandbot/CoreCommandResponder.java:84-97 | `join` or `part` without an argument prompts for one and does not consume the token. |
| Responders.GuardedWithoutToken | tk/halfgray/pcommandbot/CoreCommandResponder.java:76-110 | A guarded subcommand from an unauthenticated user is refused and changes nothing. |
| Responders.GuardedWithToken | tk/halfgray/pcommandbot/CoreCommandResponder.java:76-110 | An authenticated guarded subcommand consumes the token and requests the effect, with the documented answers. Parting the current channel gives an empty answer. |
| Responders.AuthThenJoinOnce | tk/halfgray/pcommandbot/CoreCommandResponder.java:65-93 | Authenticate then join: the first join succeeds and the second is refused. |
| Responders.RespondTo | tk/halfgray/pcommandbot/FixedResponder.java:22-25 | A fixed responder answers its message with no effect. The core responder answers through `CoreRespond`. |
| Responders.FixedIgnoresContext | tk/halfgray/pcommandbot/FixedResponder.java:18-25 | A fixed responder's answer is independent of channel, user, mentions and argument. |
| Dispatch.Invoke | tk/halfgray/pcommandbot/PCommandBot.java:742-747 | A name without a responder does nothing. Otherwise the responder answers the context's channel, sender, mentions and argument. A non-empty answer is appended with the mention prefix, and earlier responses are kept. The effect is recorded, the core state becomes the responder's, and `quit` stops the run. |
| Dispatch.PresentTargets | tk/halfgray/pcommandbot/PCommandBot.java:730-736 | Only targets that have a responder are called, each with the command's argument. |
| Dispatch.PresentTargetsMembership | tk/halfgray/pcommandbot/PCommandBot.java:730-736 | A target is called if and only if it is in the synonym group and has a responder. |
| Dispatch.PresentTargetsAppend | tk/halfgray/pcommandbot/PCommandBot.java:730-736 | The calls keep the order of the group: the calls of a concatenation are the calls of the parts, one after the other. |
| Dispatch.PresentTargetsOne | tk/halfgray/pcommandbot/PCommandBot.java:730-736 | A single target is called, with the argument, exactly when it has a responder. |
| Dispatch.InvokeTargets | tk/halfgray/pcommandbot/PCommandBot.java:730-737 | After `quit` nothing changes. Each target adds at most one response and earlier responses are kept. A group with no registered target changes nothing. |
| Dispatch.CallsOf | tk/halfgray/pcommandbot/PCommandBot.java:728-747 | A match calls only registered responders. A synonym group calls only its own targets. A name known nowhere calls nothing. |
| Dispatch.ProcessCommands | tk/halfgray/pcommandbot/PCommandBot.java:685-750 | It fails if and only if the bot is not ready. Otherwise the run is the reference call list of the extracted commands, performed in order: match by match, and within a synonym group target by target, unknown names contributing nothing. Every response carries the mention prefix in front of a non-empty answer. |
| Dispatch.ProcessMatch | tk/halfgray/pcommandbot/PCommandBot.java:718-747 | After `quit` nothing changes. A name known neither as a synonym group nor as a responder changes nothing. A regular command adds at most one response. Earlier responses are kept. |
| Dispatch.ProcessMatches | tk/halfgray/pcommandbot/PCommandBot.java:717-748 | After `quit` nothing changes. Responses are only ever appended. |
| Dispatch.RunCallsAppend | tk/halfgray/pcommandbot/PCommandBot.java:717-748 | Running two call lists in a row is running their concatenation. |
| Dispatch.TargetsAreCalls | tk/halfgray/pcommandbot/PCommandBot.java:728-740 | The synonym loop is the same as running the calls to its present targets. |
| Dispatch.DispatchIsCalls | tk/halfgray/pcommandbot/PCommandBot.java:717-748 | The dispatch loop equals running the flat list of responder calls, in order. |
| Dispatch.RunCallsPrefixed | tk/halfgray/pcommandbot/PCommandBot.java:733-746 | Each call adds at most one response, with the mention prefix, and keeps earlier responses. |
| Dispatch.FixedCallsAnswer | tk/halfgray/pcommandbot/PCommandBot.java:733-746 | Calls to fixed responders add exactly their prefixed non-empty messages, in order, and change nothing else. |
| Dispatch.InvokeFixed | tk/halfgray/pcommandbot/PCommandBot.java:742-747 | A call of a fixed responder appends its prefixed message when that message is non-empty, and changes nothing else. |
| Dispatch.UnknownCommandIgnored | tk/halfgray/pcommandbot/PCommandBot.java:728-747 | A command known neither as a synonym group nor as a responder is ignored. |
| Dispatch.SynonymGroupExample | tk/halfgray/pcommandbot/PCommandBot.java:728-740 | A group `[a, b, missing]` answers with a's and b's messages in order and skips `missing`. |
| Dispatch.OnMessage | tk/halfgray/pcommandbot/PCommandBot.java:763-776 | It fails if and only if the bot is not ready. After `quit` nothing is sent. Only the core state changes. When the commands give responses, exactly those are sent, in order. Otherwise the mentioned response is sent if the bot is mentioned and the response is non-empty, and nothing else. |
| Dispatch.OnPrivateMessage | tk/halfgray/pcommandbot/PCommandBot.java:787-798 | It fails if and only if the bot is not ready. Private messages carry no mentions. When the commands give responses, exactly those are sent, in order. Otherwise the default private reply is sent if it is non-empty, and nothing else. |
| Dispatch.MentionedFallback | tk/halfgray/pcommandbot/PCommandBot.java:768-774 | With no responses, the mentioned response is sent if and only if it is non-empty and the bot's nick is mentioned, compared without regard to case. |
| Dispatch.PrivateFallback | tk/halfgray/pcommandbot/PCommandBot.java:793-796 | With no responses, the default private reply is sent if and only if it is non-empty. |
| Dispatch.ResponsesSent | tk/halfgray/pcommandbot/PCommandBot.java:764-768 | When the commands give responses, exactly those responses are sent, in order, in a channel and in private. |
| Dispatch.NoPrefixNoResponses | tk/halfgray/pcommandbot/PCommandBot.java:689-750 | A message without the prefix yields no responses or effects and leaves the core state alone. |
| Dispatch.EmptyPrivateMessage | tk/halfgray/pcommandbot/PCommandBot.java:787-798 | An empty private message gets the default reply if one is configured, and nothing otherwise. |
| Config.StringField | tk/halfgray/pcommandbot/PCommandBot.java:230-257 | A present string field is supertrimmed. Otherwise the default is used. |
| Config.NonEmptyField | tk/halfgray/pcommandbot/PCommandBot.java:230-239 | The value is the supertrimmed string field when that is non-empty, and the default otherwise. So the command prefix and the core command name are never empty. |
| Config.Validate | tk/halfgray/pcommandbot/PCommandBot.java:170-280 | A configuration is accepted if and only if the server is a string, the nicks are a non-empty list of strings, the channels are strings when they are a non-empty list, and the admin password is a non-empty string. A missing server is reported first. A null nick or channel item is reported as such. |
| Config.NullNickRejected | tk/halfgray/pcommandbot/PCommandBot.java:192-202 | A null nick item makes loading fail when the server is present and no item is of another type, because `supertrim` receives null. |
| Config.StringItems | tk/halfgray/pcommandbot/PCommandBot.java:366-372 | A string is kept if and only if it is an item of the list. Other items are dropped, and no item is added. |
| Config.StringItemsAppend | tk/halfgray/pcommandbot/PCommandBot.java:366-372 | The filter keeps order: the strings of a concatenation are the strings of the parts, one after the other. |
| Config.StringItemsOne | tk/halfgray/pcommandbot/PCommandBot.java:366-372 | A single item is kept, as written, exactly when it is a string. |
| Config.LoadFixed | tk/halfgray/pcommandbot/PCommandBot.java:315-336 | The fixed commands are stored under lowercase names, and nothing earlier is lost. |
| Config.LoadSynonyms | tk/halfgray/pcommandbot/PCommandBot.java:344-377 | The synonym groups are stored under lowercase names. |
| Config.Configure | tk/halfgray/pcommandbot/PCommandBot.java:155-284 | It is rejected if and only if a check fails, and with that check's error. A loaded bot is ready and has the loaded prefix, terminator, default private reply and mentioned response. Its core state is a new core responder for the admin password, with the empty token. The responders are the fixed commands plus the core responder under the lowercased core command name. The synonym groups are all groups except the one under the core command name as configured. Command tables have lowercase keys. |
| Config.UppercaseTargetNeverCalled | tk/halfgray/pcommandbot/PCommandBot.java:370-374 | A synonym target that is not lowercase is never called, because responder names are all lowercase. |
| Config.TargetsAsWritten | tk/halfgray/pcommandbot/PCommandBot.java:366-374 | A list of strings is loaded unchanged: targets keep their case and order. |
| Config.LoadFixedFinds | tk/halfgray/pcommandbot/PCommandBot.java:327-334 | The last string entry for a name decides its responder. |
| Config.LoadFixedKeeps | tk/halfgray/pcommandbot/PCommandBot.java:327-334 | Entries for other names leave a responder in place. |
| Config.LoadFixedAbsent | tk/halfgray/pcommandbot/PCommandBot.java:327-334 | A name that no string entry lowercases to gets no fixed responder. |
| Config.LoadSynonymsFinds | tk/halfgray/pcommandbot/PCommandBot.java:359-375 | The last array entry whose name lowercases to a name decides its synonym group: the entry's string items, in order. |
| Config.LoadSynonymsKeeps | tk/halfgray/pcommandbot/PCommandBot.java:359-375 | Entries for other names, or that are not arrays, leave a synonym group in place. |
| Config.LoadSynonymsAbsent | tk/halfgray/pcommandbot/PCommandBot.java:359-375 | A name that no array entry lowercases to gets no synonym group. |
| Config.ConfiguredCommandAnswers | tk/halfgray/pcommandbot/PCommandBot.java:259-280 | A fixed command configured under any spelling answers to its lowercased name. |
| Config.MixedCaseCoreShadowed | tk/halfgray/pcommandbot/PCommandBot.java:263-280 | With a mixed-case core command name, a synonym group under the lowercased name survives the removal and shadows the core responder. |
| Config.LowercaseCoreReached | tk/halfgray/pcommandbot/PCommandBot.java:263-280 | With a lowercase core command name, no synonym group shadows the core responder. |
| NormalizedKeys.Empty | tk/halfgray/pcommandbot/NormalizedKeyMap.java:41-43 | A new map is empty and keeps its normaliser. |
| NormalizedKeys.Get | tk/halfgray/pcommandbot/NormalizedKeyMap.java:69-72 | The value stored under the normalised key, or none. |
| NormalizedKeys.ContainsKey | tk/halfgray/pcommandbot/NormalizedKeyMap.java:64-67 | A key is contained if and only if `get` finds it. |
| NormalizedKeys.Put | tk/halfgray/pcommandbot/NormalizedKeyMap.java:74-77 | It returns the previous value. The keys afterwards are the old keys plus the normalised key. Every stored key stays normalised. |
| NormalizedKeys.Remove | tk/halfgray/pcommandbot/NormalizedKeyMap.java:79-82 | It returns the previous value. The keys afterwards are the old keys minus the normalised key. |
| NormalizedKeys.Entries | tk/halfgray/pcommandbot/NormalizedKeyMap.java:59-62 | The entry set holds exactly the stored pairs. |
| NormalizedKeys.EntryKeysNormalized | tk/halfgray/pcommandbot/NormalizedKeyMap.java:59-62 | Every key in the entry set is a normaliser output. |
| NormalizedKeys.PutThenGet | tk/halfgray/pcommandbot/NormalizedKeyMap.java:69-77 | After a put, every key that normalises the same way reads the stored value. |
| NormalizedKeys.PutKeepsOthers | tk/halfgray/pcommandbot/NormalizedKeyMap.java:69-77 | A put leaves keys that normalise differently alone. |
| NormalizedKeys.RemoveThenGet | tk/halfgray/pcommandbot/NormalizedKeyMap.java:69-82 | After a remove, equivalent keys read nothing and other keys read as before. |
| NormalizedKeys.RemoveUndoesPut | tk/halfgray/pcommandbot/NormalizedKeyMap.java:74-82 | Removing a freshly put key restores the map and returns the value put. |
| NormalizedKeys.PutAll | tk/halfgray/pcommandbot/NormalizedKeyMap.java:55-56 | Putting entries one by one keeps every key normalised. |
| NormalizedKeys.CopyOf | tk/halfgray/pcommandbot/NormalizedKeyMap.java:52-57 | A copy holds only normalised keys. |
| NormalizedKeys.PutAllKeys | tk/halfgray/pcommandbot/NormalizedKeyMap.java:52-77 | The keys after `putAll` are the old keys plus the normalised keys of the entries. |
| NormalizedKeys.CopyOfKeys | tk/halfgray/pcommandbot/NormalizedKeyMap.java:52-57 | A copy's keys are exactly the normalised source keys. |
| NormalizedKeys.PutAllLastWins | tk/halfgray/pcommandbot/NormalizedKeyMap.java:52-77 | When source keys collide after normalisation, the value put last wins. |
| NormalizedKeys.PutAllKeepsOthers | tk/halfgray/pcommandbot/NormalizedKeyMap.java:74-77 | Entries under other normalised keys do not change what a key reads. |

## Behaviour modelled as written

- `supertrim` removes only leading whitespace. In its regular expression the
  greedy `(.*)` group leaves nothing for the trailing whitespace class.
  `Text.Supertrim` keeps trailing whitespace, as the code does, although the
  doc comment promises to trim both ends.
- The core responder starts with the empty token, and a passed check stores
  the empty token again. So a check for the empty user name passes whenever
  no authentication is pending, and changes nothing
  (`Responders.EmptyTokenQuirk`). IRC senders are never empty, so this has no
  effect in practice.
- Synonym targets are stored as written, while responder names are
  lowercased. A target that is not lowercase is therefore never called.
- The core command is removed from the synonym groups under its configured
  spelling, but installed under the lowercased spelling.
- Java nulls are `None` or `Json.JNull`. A private message passes a null
  channel to `processCommands` and the responders, modelled as `None`. A
  JSON null item in the nicks or channels reaches `supertrim` and throws
  (`Config.NullNick`, `Config.NullChannel`).

## Left out

- IRC transport: connecting, sending and receiving messages, and nick
  handling are not modelled. `join`, `part` and `quit` come back as
  `Effect` values, and "sending" is a list of strings in `Delivery`.
- Channel membership tracking (the join, part, kick and user-list events) is
  not modelled. The channel's user set is a parameter (`users`). The source
  fills it with the second part of each lowercased nick split once at a run
  of non-alphanumeric characters. That is `"alice"` for `"@alice"`, but `""`
  for a nick made only of non-alphanumerics such as `_`. On Java 8 and later
  it is also `"lice"` for `"alice"` and `""` for a one-character nick,
  because a zero-width match at the start is skipped there.
- JSON parsing and file reading are not modelled. `Config.Json` is the
  parsed value. Objects are entry sequences in the order the parser
  iterates them.
- The transport-only configuration fields (port, user name, NickServ
  password, channels to join) are checked but not stored. They are not
  read by the dispatcher.
- The clock and date formatting used by `time` are not modelled. The
  formatted time is the `now` parameter.
- Lowercasing is modelled for ASCII only. Non-ASCII case mappings of
  `Locale.ENGLISH` are not modelled, because commands and nicks in practice
  are ASCII.
- The whitespace class is written out for the Basic Multilingual Plane,
  following the space separators of Unicode 6.3 and later (Java 9 and
  later). Java 7 and 8 use older tables, where U+180E MONGOLIAN VOWEL
  SEPARATOR is also a space character. The model does not include it. UTF-16
  surrogate pairs (characters outside the plane) are not modelled.
- Config.Configure: the NullPointerException that `supertrim` throws on a
  JSON null nick or channel item is modelled as the errors `NullNick` and
  `NullChannel`. The model does not tell an unchecked exception from the
  `IllegalArgumentException` of the other checks, because both abort
  loading.
- Mentions.MentionsIn: requires that the empty string is not in the
  channel's user set. The set can hold `""`, for example when a user named
  `_` is in the channel. In that case the Java code keeps the empty tokens of
  the message and returns an array with null entries, so every response is
  prefixed `"null: "`. The model does not cover that case.
- `Main` and the `Responder` interface declaration carry no logic of their
  own and are not modelled.
- Two commands in one message are not stated as a single concrete lemma.
  `Extractor.TerminatedCommandAt` followed by `Extractor.LastCommandAt` gives
  the same result.

=== FILE: bot.dfy ===
/**
 * The dispatcher of PCommandBot: processCommands looks every extracted
 * command up (synonym groups first, then direct responders), collects the
 * non-empty answers with the mention prefix in front, and onMessage /
 * onPrivateMessage decide what is sent back when no command answered.
 */
module Dispatch {
  import opened Wrappers
  import opened Text
  import opened Extractor
  import opened Mentions
  import opened Responders

  /**
   * The part of a configured bot the dispatcher reads. Keys of `responders`
   * and `synonyms` are lowercase command names; synonym targets are looked up
   * as they are stored. `core` is the state shared by the Core responders.
   */
  datatype Bot = Bot(
    ready: bool,
    prefix: string,
    terminator: string,
    defaultPrivate: string,
    mentionedResponse: string,
    responders: map<string, Responder>,
    synonyms: map<string, seq<string>>,
    core: CoreState)

  /** The circumstances of one message: channel (None when private), sender, mentions, clock reading. */
  datatype Context = Context(channel: Option<string>, sender: string, mentions: seq<string>, now: string)

  /**
   * The progress of processCommands: responses collected so far, effects
   * requested so far, the core state, and whether a `quit` has ended the
   * process.
   */
  datatype Run = Run(responses: seq<string>, effects: seq<Effect>, core: CoreState, exited: bool)

  /** The responses a run adds all carry the mention prefix in front of a non-empty answer. */
  predicate Prefixed(rs: seq<string>, mentions: seq<string>)
  {
    forall n :: 0 <= n < |rs| ==>
      |rs[n]| > |MentionPrefix(mentions)| && rs[n][..|MentionPrefix(mentions)|] == MentionPrefix(mentions)
  }

  /** One call of the responder registered as `name`: its answer is kept when non-empty. */
  function Invoke(bot: Bot, ctx: Context, name: string, argument: string, run: Run): (r: Run)
    ensures run.exited ==> r == run
    ensures name !in bot.responders ==> r == run
    ensures |run.responses| <= |r.responses| <= |run.responses| + 1
    ensures r.responses[..|run.responses|] == run.responses
    ensures Prefixed(r.responses[|run.responses|..], ctx.mentions)
    ensures r.core.password == run.core.password
    // a call hands the responder's answer, effect and core state on to the run
    ensures !run.exited && name in bot.responders ==>
      var reply := RespondTo(bot.responders[name], run.core, ctx.channel, ctx.sender, ctx.mentions, argument, ctx.now);
      && r.responses == run.responses + (if reply.text == "" then [] else [MentionPrefix(ctx.mentions) + reply.text])
      && r.effects == run.effects + (if reply.effect.Some? then [reply.effect.value] else [])
      && r.core == reply.core
      && r.exited == (reply.effect.Some? && reply.effect.value.QuitServer?)
  {
    if run.exited || name !in bot.responders then run
    else
      var reply := RespondTo(bot.responders[name], run.core, ctx.channel, ctx.sender, ctx.mentions, argument, ctx.now);
      var mp := MentionPrefix(ctx.mentions);
      var added := if reply.text == "" then [] else [mp + reply.text];
      assert Prefixed(added, ctx.mentions) by {
        if added != [] {
          assert added[0][..|mp|] == mp;
        }
      }
      var rs := run.responses + added;
      assert rs[..|run.responses|] == run.responses && rs[|run.responses|..] == added;
      Run(rs,
          run.effects + (if reply.effect.Some? then [reply.effect.value] else []),
          reply.core,
          reply.effect.Some? && reply.effect.value.QuitServer?)
  }

  /** The loop over the targets of a synonym group: targets without a responder are skipped. */
  function InvokeTargets(bot: Bot, ctx: Context, targets: seq<string>, argument: string, run: Run): (r: Run)
    ensures run.exited ==> r == run
    ensures |run.responses| <= |r.responses| <= |run.responses| + |targets|
    ensures r.responses[..|run.responses|] == run.responses
    ensures (forall n :: 0 <= n < |targets| ==> targets[n] !in bot.responders) ==> r == run
    decreases |targets|
  {
    if targets == [] then run
    else InvokeTargets(bot, ctx, targets[1..], argument, Invoke(bot, ctx, targets[0], argument, run))
  }

  /** One match of processCommands: a synonym group shadows a direct responder of the same name. */
  function ProcessMatch(bot: Bot, ctx: Context, cmd: Command, run: Run): (r: Run)
    ensures run.exited ==> r == run
    ensures cmd.name !in bot.synonyms && cmd.name !in bot.responders ==> r == run
    ensures cmd.name !in bot.synonyms ==> |r.responses| <= |run.responses| + 1
    ensures |run.responses| <= |r.responses| && r.responses[..|run.responses|] == run.responses
  {
    if cmd.name in bot.synonyms then InvokeTargets(bot, ctx, bot.synonyms[cmd.name], cmd.argument, run)
    else Invoke(bot, ctx, cmd.name, cmd.argument, run)
  }

  /** The matches, in order. */
  function ProcessMatches(bot: Bot, ctx: Context, cmds: seq<Command>, run: Run): (r: Run)
    ensures run.exited ==> r == run
    ensures |run.responses| <= |r.responses| && r.responses[..|run.responses|] == run.responses
    decreases |cmds|
  {
    if cmds == [] then run
    else ProcessMatches(bot, ctx, cmds[1..], ProcessMatch(bot, ctx, cmds[0], run))
  }

  /** The processing of a message failed because no configuration was loaded. */
  datatype Error = NotReady

  /**
   * processCommands: extract the commands of the message and dispatch them.
   * Private messages (channel None) carry no mentions. `users` is the set of
   * lowercase nicks in the channel.
   */
  function ProcessCommands(bot: Bot, channel: Option<string>, users: set<string>, sender: string, message: string, now: string): (r: Result<Run, Error>)
    requires "" !in users
    ensures r.Failure? <==> !bot.ready
    ensures r.Success? ==> Prefixed(r.value.responses, if channel.Some? then MentionsIn(users, message) else [])
    // the run is the reference calls of the extracted commands, performed in order
    ensures r.Success? ==>
      var ms := if channel.Some? then MentionsIn(users, message) else [];
      r.value == RunCalls(bot, Context(channel, sender, ms, now), Calls(bot, Extract(message, bot.prefix, bot.terminator)), Run([], [], bot.core, false))
  {
    if !bot.ready then Failure(NotReady)
    else
      var ms := if channel.Some? then MentionsIn(users, message) else [];
      var cmds := Extract(message, bot.prefix, bot.terminator);
      var r := ProcessMatches(bot, Context(channel, sender, ms, now), cmds, Run([], [], bot.core, false));
      DispatchIsCalls(bot, Context(channel, sender, ms, now), cmds, Run([], [], bot.core, false));
      RunCallsPrefixed(bot, Context(channel, sender, ms, now), Calls(bot, cmds), Run([], [], bot.core, false));
      assert r.responses[0..] == r.responses;
      Success(r)
  }

  // ----- A reference description of the dispatch: the flat list of responder calls -----

  /** A responder call: the registered name that is called and the argument it is given. */
  datatype Call = Call(target: string, argument: string)

  /** The targets of a synonym group that have a responder, in the group's order. */
  function PresentTargets(bot: Bot, targets: seq<string>, argument: string): (cs: seq<Call>)
    ensures forall n :: 0 <= n < |cs| ==> cs[n].target in bot.responders && cs[n].target in targets && cs[n].argument == argument
    decreases |targets|
  {
    if targets == [] then []
    else if targets[0] in bot.responders then [Call(targets[0], argument)] + PresentTargets(bot, targets[1..], argument)
    else PresentTargets(bot, targets[1..], argument)
  }

  /** Looking up the targets of two lists one after the other: the calls keep the order of the targets. */
  lemma {:induction false} PresentTargetsAppend(bot: Bot, a: seq<string>, b: seq<string>, argument: string)
    ensures PresentTargets(bot, a + b, argument) == PresentTargets(bot, a, argument) + PresentTargets(bot, b, argument)
    decreases |a|
  {
    if a == [] {
      assert a + b == b;
    } else {
      assert (a + b)[0] == a[0] && (a + b)[1..] == a[1..] + b;
      PresentTargetsAppend(bot, a[1..], b, argument);
    }
  }

  /** A single target is called exactly when it has a responder. */
  lemma PresentTargetsOne(bot: Bot, t: string, argument: string)
    ensures PresentTargets(bot, [t], argument) == if t in bot.responders then [Call(t, argument)] else []
  {
    assert [t][1..] == [];
  }

  /** A target is called, with the command's argument, exactly when it is in the group and has a responder. */
  lemma {:induction false} PresentTargetsMembership(bot: Bot, targets: seq<string>, argument: string, t: string)
    ensures Call(t, argument) in PresentTargets(bot, targets, argument) <==> t in targets && t in bot.responders
    decreases |targets|
  {
    if targets != [] {
      PresentTargetsMembership(bot, targets[1..], argument, t);
      assert targets == [targets[0]] + targets[1..];
    }
  }

  /**
   * The calls one command leads to: the present targets of its synonym group
   * if it names one, otherwise its own responder if there is one, otherwise
   * nothing.
   */
  function CallsOf(bot: Bot, cmd: Command): (cs: seq<Call>)
    ensures cmd.name !in bot.synonyms && cmd.name !in bot.responders ==> cs == []
    ensures forall n :: 0 <= n < |cs| ==> cs[n].target in bot.responders && cs[n].argument == cmd.argument
    ensures cmd.name in bot.synonyms ==> forall n :: 0 <= n < |cs| ==> cs[n].target in bot.synonyms[cmd.name]
  {
    if cmd.name in bot.synonyms then PresentTargets(bot, bot.synonyms[cmd.name], cmd.argument)
    else if cmd.name in bot.responders then [Call(cmd.name, cmd.argument)]
    else []
  }

  /** All calls of a message, by match and then by synonym target. */
  function Calls(bot: Bot, cmds: seq<Command>): seq<Call>
    decreases |cmds|
  {
    if cmds == [] then [] else CallsOf(bot, cmds[0]) + Calls(bot, cmds[1..])
  }

  /** Performing the calls one after the other. */
  function RunCalls(bot: Bot, ctx: Context, calls: seq<Call>, run: Run): Run
    decreases |calls|
  {
    if calls == [] then run
    else RunCalls(bot, ctx, calls[1..], Invoke(bot, ctx, calls[0].target, calls[0].argument, run))
  }

  lemma {:induction false} RunCallsAppend(bot: Bot, ctx: Context, a: seq<Call>, b: seq<Call>, run: Run)
    ensures RunCalls(bot, ctx, a + b, run) == RunCalls(bot, ctx, b, RunCalls(bot, ctx, a, run))
    decreases |a|
  {
    if a != [] {
      assert (a + b)[1..] == a[1..] + b;
      RunCallsAppend(bot, ctx, a[1..], b, Invoke(bot, ctx, a[0].target, a[0].argument, run));
    } else {
      assert a + b == b;
    }
  }

  /** The target loop performs exactly the calls of the present targets. */
  lemma {:induction false} TargetsAreCalls(bot: Bot, ctx: Context, targets: seq<string>, argument: string, run: Run)
    ensures InvokeTargets(bot, ctx, targets, argument, run) == RunCalls(bot, ctx, PresentTargets(bot, targets, argument), run)
    decreases |targets|
  {
    if targets != [] {
      var next := Invoke(bot, ctx, targets[0], argument, run);
      TargetsAreCalls(bot, ctx, targets[1..], argument, next);
      if targets[0] !in bot.responders {
        assert next == run;
      }
    }
  }

  /**
   * The dispatch loop of processCommands performs exactly the calls the
   * reference list describes, in that order.
   */
  lemma {:induction false} DispatchIsCalls(bot: Bot, ctx: Context, cmds: seq<Command>, run: Run)
    ensures ProcessMatches(bot, ctx, cmds, run) == RunCalls(bot, ctx, Calls(bot, cmds), run)
    decreases |cmds|
  {
    if cmds != [] {
      var cmd := cmds[0];
      var next := ProcessMatch(bot, ctx, cmd, run);
      if cmd.name in bot.synonyms {
        TargetsAreCalls(bot, ctx, bot.synonyms[cmd.name], cmd.argument, run);
      } else if cmd.name !in bot.responders {
        assert next == run;
      }
      assert next == RunCalls(bot, ctx, CallsOf(bot, cmd), run);
      DispatchIsCalls(bot, ctx, cmds[1..], next);
      RunCallsAppend(bot, ctx, CallsOf(bot, cmd), Calls(bot, cmds[1..]), run);
    }
  }

  /** Every response the calls add has the mention prefix in front of a non-empty answer, and at most one comes per call. */
  lemma {:induction false} RunCallsPrefixed(bot: Bot, ctx: Context, calls: seq<Call>, run: Run)
    ensures var r := RunCalls(bot, ctx, calls, run);
      && |run.responses| <= |r.responses| <= |run.responses| + |calls|
      && r.responses[..|run.responses|] == run.responses
      && Prefixed(r.responses[|run.responses|..], ctx.mentions)
    decreases |calls|
  {
    if calls != [] {
      var next := Invoke(bot, ctx, calls[0].target, calls[0].argument, run);
      RunCallsPrefixed(bot, ctx, calls[1..], next);
      var r := RunCalls(bot, ctx, calls, run);
      var a := next.responses[|run.responses|..];
      var b := r.responses[|next.responses|..];
      assert r.responses[|run.responses|..] == a + b;
      assert r.responses[..|run.responses|] == run.responses;
      var mp := MentionPrefix(ctx.mentions);
      forall n | 0 <= n < |a + b|
        ensures |(a + b)[n]| > |mp| && (a + b)[n][..|mp|] == mp
      {
        if n >= |a| {
          assert (a + b)[n] == b[n - |a|];
        }
      }
    }
  }

  /** The answers the called responders give when all of them are fixed. */
  function FixedAnswers(bot: Bot, mentions: seq<string>, calls: seq<Call>): seq<string>
    requires forall n :: 0 <= n < |calls| ==> calls[n].target in bot.responders && bot.responders[calls[n].target].Fixed?
    decreases |calls|
  {
    if calls == [] then []
    else
      var m := bot.responders[calls[0].target].message;
      (if m == "" then [] else [MentionPrefix(mentions) + m]) + FixedAnswers(bot, mentions, calls[1..])
  }

  /**
   * When only fixed responders are called, the responses are their non-empty
   * messages with the mention prefix, in call order, and neither the core
   * state nor the effects change.
   */
  lemma {:induction false} FixedCallsAnswer(bot: Bot, ctx: Context, calls: seq<Call>, run: Run)
    requires !run.exited
    requires AllFixed(bot, calls)
    ensures RunCalls(bot, ctx, calls, run) == run.(responses := run.responses + FixedAnswers(bot, ctx.mentions, calls))
    decreases |calls|
  {
    if calls != [] {
      var first := FixedAnswers(bot, ctx.mentions, calls[..1]);
      var rest := FixedAnswers(bot, ctx.mentions, calls[1..]);
      var next := run.(responses := run.responses + first);
      RunCallsFixedStep(bot, ctx, calls, run);
      AllFixedTail(bot, calls);
      FixedCallsAnswer(bot, ctx, calls[1..], next);
      FixedAnswersSplit(bot, ctx.mentions, calls);
      AppendResponses(run, first, rest);
    }
  }

  /** Appending two batches of responses, one after the other, is appending both at once. */
  lemma AppendResponses(run: Run, first: seq<string>, rest: seq<string>)
    ensures var next := run.(responses := run.responses + first);
      next.(responses := next.responses + rest) == run.(responses := run.responses + (first + rest))
  {
    assert run.responses + first + rest == run.responses + (first + rest);
  }

  /** Every call of a list that targets a fixed responder. */
  predicate AllFixed(bot: Bot, calls: seq<Call>)
  {
    forall n :: 0 <= n < |calls| ==> calls[n].target in bot.responders && bot.responders[calls[n].target].Fixed?
  }

  lemma AllFixedTail(bot: Bot, calls: seq<Call>)
    requires calls != [] && AllFixed(bot, calls)
    ensures AllFixed(bot, calls[1..])
  {
    assert forall n :: 0 <= n < |calls[1..]| ==> calls[1..][n] == calls[n + 1];
  }

  /** Running calls that start with a fixed responder: its answer, then the other calls. */
  lemma RunCallsFixedStep(bot: Bot, ctx: Context, calls: seq<Call>, run: Run)
    requires !run.exited && calls != []
    requires calls[0].target in bot.responders && bot.responders[calls[0].target].Fixed?
    ensures RunCalls(bot, ctx, calls, run)
      == RunCalls(bot, ctx, calls[1..], run.(responses := run.responses + FixedAnswers(bot, ctx.mentions, calls[..1])))
  {
    InvokeFixed(bot, ctx, calls, run);
  }

  /** The first call of a fixed responder adds its answer. */
  lemma InvokeFixed(bot: Bot, ctx: Context, calls: seq<Call>, run: Run)
    requires !run.exited && calls != []
    requires calls[0].target in bot.responders && bot.responders[calls[0].target].Fixed?
    ensures Invoke(bot, ctx, calls[0].target, calls[0].argument, run)
      == run.(responses := run.responses + FixedAnswers(bot, ctx.mentions, calls[..1]))
  {
    assert calls[..1][1..] == [];
  }

  /** The fixed answers of the first call, then those of the rest. */
  lemma FixedAnswersSplit(bot: Bot, mentions: seq<string>, calls: seq<Call>)
    requires calls != []
    requires forall n :: 0 <= n < |calls| ==> calls[n].target in bot.responders && bot.responders[calls[n].target].Fixed?
    ensures FixedAnswers(bot, mentions, calls) == FixedAnswers(bot, mentions, calls[..1]) + FixedAnswers(bot, mentions, calls[1..])
  {
    assert calls[..1][1..] == [];
  }

  /** A command that is neither a synonym group nor a responder changes nothing. */
  lemma UnknownCommandIgnored(bot: Bot, ctx: Context, cmd: Command, run: Run)
    requires cmd.name !in bot.synonyms && cmd.name !in bot.responders
    ensures ProcessMatch(bot, ctx, cmd, run) == run
  {
  }

  /**
   * A synonym group "multi" of [a, b, missing], with fixed answers at a and b
   * and nothing at missing: both answers, each with the mention prefix, a's
   * first.
   */
  lemma SynonymGroupExample(bot: Bot, ctx: Context, multi: string, a: string, b: string, missing: string, x: string, ma: string, mb: string)
    requires multi in bot.synonyms && bot.synonyms[multi] == [a, b, missing]
    requires a in bot.responders && bot.responders[a] == Fixed(ma) && ma != ""
    requires b in bot.responders && bot.responders[b] == Fixed(mb) && mb != ""
    requires missing !in bot.responders
    ensures var r := ProcessMatch(bot, ctx, Command(multi, x), Run([], [], bot.core, false));
      r.responses == [MentionPrefix(ctx.mentions) + ma, MentionPrefix(ctx.mentions) + mb]
  {
    var run := Run([], [], bot.core, false);
    var ts := [a, b, missing];
    assert ts[1..] == [b, missing] && ts[1..][1..] == [missing] && ts[1..][1..][1..] == [];
    var calls := [Call(a, x), Call(b, x)];
    assert PresentTargets(bot, ts[1..][1..], x) == [];
    assert PresentTargets(bot, ts[1..], x) == [Call(b, x)];
    assert PresentTargets(bot, ts, x) == calls;
    TargetsAreCalls(bot, ctx, ts, x, run);
    FixedCallsAnswer(bot, ctx, calls, run);
    assert calls[1..] == [Call(b, x)] && calls[1..][1..] == [];
    var mp := MentionPrefix(ctx.mentions);
    assert FixedAnswers(bot, ctx.mentions, [Call(b, x)]) == [mp + mb];
    assert FixedAnswers(bot, ctx.mentions, calls) == [mp + ma] + [mp + mb];
  }

  /** What onMessage / onPrivateMessage deliver: the messages sent, the effects, and the bot afterwards. */
  datatype Delivery = Delivery(sent: seq<string>, effects: seq<Effect>, bot: Bot, exited: bool)

  /**
   * onMessage: the responses are sent to the channel; when there are none,
   * the mentioned-response is sent alone if it is set and the bot's nick is
   * among the mentions of the lowercased message. A `quit` ends the process
   * before anything is sent.
   */
  function OnMessage(bot: Bot, channel: string, users: set<string>, nick: string, sender: string, message: string, now: string): (r: Result<Delivery, Error>)
    requires "" !in users
    ensures r.Failure? <==> !bot.ready
    ensures r.Success? && r.value.exited ==> r.value.sent == []
    ensures r.Success? ==> r.value.bot == bot.(core := r.value.bot.core)
    ensures r.Success? ==> |r.value.sent| <= 1 || Prefixed(r.value.sent, MentionsIn(users, message))
    // the command responses go out when there are any; otherwise at most the mentioned-response
    ensures r.Success? ==> var run := ProcessCommands(bot, Some(channel), users, sender, message, now).value;
      && r.value.effects == run.effects && r.value.bot.core == run.core && r.value.exited == run.exited
      && (!run.exited && run.responses != [] ==> r.value.sent == run.responses)
      && (!run.exited && run.responses == [] ==>
            r.value.sent == if BotMentioned(users, message, nick) && bot.mentionedResponse != "" then [bot.mentionedResponse] else [])
  {
    match ProcessCommands(bot, Some(channel), users, sender, message, now)
    case Failure(e) => Failure(e)
    case Success(run) =>
      var sent :=
        if run.exited then []
        else if run.responses != [] then run.responses
        else if BotMentioned(users, message, nick) && bot.mentionedResponse != "" then [bot.mentionedResponse]
        else [];
      Success(Delivery(sent, run.effects, bot.(core := run.core), run.exited))
  }

  /**
   * onPrivateMessage: the responses are sent to the sender; when there are
   * none, the default private reply is sent alone if it is set.
   */
  function OnPrivateMessage(bot: Bot, sender: string, message: string, now: string): (r: Result<Delivery, Error>)
    ensures r.Failure? <==> !bot.ready
    ensures r.Success? && r.value.exited ==> r.value.sent == []
    ensures r.Success? ==> r.value.bot == bot.(core := r.value.bot.core)
    ensures r.Success? ==> |r.value.sent| <= 1 || Prefixed(r.value.sent, [])
    // the command responses go out when there are any; otherwise at most the default private reply
    ensures r.Success? ==> var run := ProcessCommands(bot, None, {}, sender, message, now).value;
      && r.value.effects == run.effects && r.value.bot.core == run.core && r.value.exited == run.exited
      && (!run.exited && run.responses != [] ==> r.value.sent == run.responses)
      && (!run.exited && run.responses == [] ==>
            r.value.sent == if bot.defaultPrivate != "" then [bot.defaultPrivate] else [])
  {
    match ProcessCommands(bot, None, {}, sender, message, now)
    case Failure(e) => Failure(e)
    case Success(run) =>
      var sent :=
        if run.exited then []
        else if run.responses != [] then run.responses
        else if bot.defaultPrivate != "" then [bot.defaultPrivate]
        else [];
      Success(Delivery(sent, run.effects, bot.(core := run.core), run.exited))
  }

  /**
   * A public message with no command answers: the mentioned-response goes
   * out exactly when it is set, the bot's nick is a channel user, and some
   * token of the message is the nick in any case.
   */
  lemma MentionedFallback(bot: Bot, channel: string, users: set<string>, nick: string, sender: string, message: string, now: string)
    requires "" !in users && bot.ready
    requires ProcessCommands(bot, Some(channel), users, sender, message, now).value.responses == []
    requires !ProcessCommands(bot, Some(channel), users, sender, message, now).value.exited
    ensures var ts := NickTokens(message);
      OnMessage(bot, channel, users, nick, sender, message, now).value.sent
        == if bot.mentionedResponse != "" && Lower(nick) in users
              && (exists n :: 0 <= n < |ts| && Lower(ts[n]) == Lower(nick))
           then [bot.mentionedResponse] else []
  {
    BotMentionedMeans(users, message, nick);
  }

  /** A message without any occurrence of the prefix produces no responses and no effects. */
  lemma NoPrefixNoResponses(bot: Bot, channel: Option<string>, users: set<string>, sender: string, message: string, now: string)
    requires "" !in users && bot.ready
    requires forall i :: 0 <= i <= |message| ==> !StartsAt(message, i, bot.prefix)
    ensures var r := ProcessCommands(bot, channel, users, sender, message, now).value;
      r.responses == [] && r.effects == [] && r.core == bot.core && !r.exited
  {
    assert NextMatch(message, bot.prefix, 0).None?;
    assert Extract(message, bot.prefix, bot.terminator) == [];
  }

  /**
   * A private message with no command answers gets the default private
   * reply when one is configured, and nothing otherwise.
   */
  lemma PrivateFallback(bot: Bot, sender: string, message: string, now: string)
    requires bot.ready
    requires ProcessCommands(bot, None, {}, sender, message, now).value.responses == []
    requires !ProcessCommands(bot, None, {}, sender, message, now).value.exited
    ensures OnPrivateMessage(bot, sender, message, now).value.sent
      == if bot.defaultPrivate != "" then [bot.defaultPrivate] else []
  {
  }

  /** A message that yields responses has exactly those responses sent, in order, in a channel or privately. */
  lemma ResponsesSent(bot: Bot, channel: string, users: set<string>, nick: string, sender: string, message: string, now: string)
    requires "" !in users && bot.ready
    ensures var run := ProcessCommands(bot, Some(channel), users, sender, message, now).value;
      !run.exited && run.responses != [] ==> OnMessage(bot, channel, users, nick, sender, message, now).value.sent == run.responses
    ensures var run := ProcessCommands(bot, None, {}, sender, message, now).value;
      !run.exited && run.responses != [] ==> OnPrivateMessage(bot, sender, message, now).value.sent == run.responses
  {
  }

  /** An empty private message gets the default private reply when one is configured, and nothing else. */
  lemma EmptyPrivateMessage(bot: Bot, sender: string, now: string)
    requires bot.ready
    ensures OnPrivateMessage(bot, sender, "", now).value.sent == if bot.defaultPrivate != "" then [bot.defaultPrivate] else []
  {
    assert NextMatch("", bot.prefix, 0).None?;
    assert Extract("", bot.prefix, bot.terminator) == [];
  }
}

=== FILE: config.dfy ===
/**
 * Building the bot's command tables from its configuration object
 * (PCommandBot.loadConfiguration, loadFixedCommands, loadSynonymousCommands).
 * The parsed JSON value is given; objects are sequences of entries in the
 * order the parser's map iterates them.
 */
module Config {
  import opened Wrappers
  import opened Text
  import opened Extractor
  import opened Responders
  import opened Dispatch

  /** A parsed JSON value. */
  datatype Json =
    | JString(str: string)
    | JNumber(num: int)
    | JBool(b: bool)
    | JNull
    | JArray(items: seq<Json>)
    | JObject(entries: seq<(string, Json)>)

  const DefaultPrefix: string := "!"
  const DefaultCoreCommand: string := "p"

  /**
   * Why loadConfiguration rejects a configuration. NullNick and NullChannel
   * stand for the NullPointerException supertrim throws on a JSON null item:
   * toArray lets a null into the String array, so it is not reported as an
   * invalid item.
   */
  datatype ConfigError = NoServer | NoNicks | InvalidNick | NullNick | InvalidChannel | NullChannel | NoAdminPassword

  /** A string field, supertrimmed, or the default when the field is missing or not a string. */
  function StringField(config: map<string, Json>, key: string, default: string): (r: string)
    ensures key in config && config[key].JString? ==> r == Supertrim(config[key].str)
    ensures !(key in config && config[key].JString?) ==> r == default
  {
    if key in config && config[key].JString? then Supertrim(config[key].str) else default
  }

  /** A string field that falls back to the default when it is missing or supertrims to "". */
  function NonEmptyField(config: map<string, Json>, key: string, default: string): (r: string)
    requires default != []
    ensures r != []
    ensures r == (if StringField(config, key, default) == "" then default else StringField(config, key, default))
  {
    var v := StringField(config, key, default);
    if v == "" then default else v
  }

  predicate AllStrings(items: seq<Json>)
  {
    forall n :: 0 <= n < |items| ==> items[n].JString?
  }

  /** Every item can be stored in a String array (toArray): a string or null. */
  predicate StringsOrNulls(items: seq<Json>)
  {
    forall n :: 0 <= n < |items| ==> items[n].JString? || items[n].JNull?
  }

  /** The string items of a synonym list, in order and as written; other items are ignored. */
  function StringItems(items: seq<Json>): (ts: seq<string>)
    ensures |ts| <= |items|
    ensures forall t :: t in ts <==> JString(t) in items
    decreases |items|
  {
    if items == [] then []
    else
      var rest := StringItems(items[1..]);
      assert items == [items[0]] + items[1..];
      if items[0].JString? then [items[0].str] + rest else rest
  }

  /** The entries of the "commands" object, or none when it is missing or not an object. */
  function CommandEntries(config: map<string, Json>): seq<(string, Json)>
  {
    if "commands" in config && config["commands"].JObject? then config["commands"].entries else []
  }

  predicate LowercaseKeys<V>(m: map<string, V>)
  {
    forall k :: k in m ==> Lower(k) == k
  }

  /** loadFixedCommands: every string-valued entry becomes a fixed responder under its lowercased name. */
  function LoadFixed(entries: seq<(string, Json)>, responders: map<string, Responder>): (r: map<string, Responder>)
    requires LowercaseKeys(responders)
    ensures LowercaseKeys(r)
    ensures responders.Keys <= r.Keys
    decreases |entries|
  {
    if entries == [] then responders
    else
      var (k, v) := entries[0];
      LowerIdempotent(k);
      LoadFixed(entries[1..], if v.JString? then responders[Lower(k) := Fixed(v.str)] else responders)
  }

  /**
   * loadSynonymousCommands: every array-valued entry becomes a synonym group
   * under its lowercased name; the targets keep the case they are written in.
   */
  function LoadSynonyms(entries: seq<(string, Json)>, synonyms: map<string, seq<string>>): (r: map<string, seq<string>>)
    requires LowercaseKeys(synonyms)
    ensures LowercaseKeys(r)
    decreases |entries|
  {
    if entries == [] then synonyms
    else
      var (k, v) := entries[0];
      LowerIdempotent(k);
      LoadSynonyms(entries[1..], if v.JArray? then synonyms[Lower(k) := StringItems(v.items)] else synonyms)
  }

  /** "channels" is a non-empty array, the only case in which loadConfiguration reads its items. */
  predicate HasChannelList(config: map<string, Json>)
  {
    "channels" in config && config["channels"].JArray? && config["channels"].items != []
  }

  /**
   * The checks of loadConfiguration that can reject a configuration, in the
   * order they are made: a string "server"; a non-empty "nicks" array whose
   * items are strings (an item that is neither string nor null fails the
   * array store, a null one fails supertrim); the same for "channels" when
   * it is a non-empty array; and a non-empty string "admin_password".
   */
  function Validate(config: map<string, Json>): (r: Option<ConfigError>)
    ensures r.None? <==>
      && "server" in config && config["server"].JString?
      && "nicks" in config && config["nicks"].JArray? && config["nicks"].items != [] && AllStrings(config["nicks"].items)
      && (HasChannelList(config) ==> AllStrings(config["channels"].items))
      && "admin_password" in config && config["admin_password"].JString? && config["admin_password"].str != ""
    ensures r == Some(NoServer) <==> !("server" in config && config["server"].JString?)
    ensures r == Some(NullNick) ==>
      && "nicks" in config && config["nicks"].JArray? && StringsOrNulls(config["nicks"].items)
      && exists n :: 0 <= n < |config["nicks"].items| && config["nicks"].items[n].JNull?
    ensures r == Some(NullChannel) ==>
      && HasChannelList(config) && StringsOrNulls(config["channels"].items)
      && exists n :: 0 <= n < |config["channels"].items| && config["channels"].items[n].JNull?
  {
    if !("server" in config && config["server"].JString?) then Some(NoServer)
    else if !("nicks" in config && config["nicks"].JArray? && config["nicks"].items != []) then Some(NoNicks)
    else if !StringsOrNulls(config["nicks"].items) then Some(InvalidNick)
    else if !AllStrings(config["nicks"].items) then Some(NullNick)
    else if HasChannelList(config) && !StringsOrNulls(config["channels"].items) then Some(InvalidChannel)
    else if HasChannelList(config) && !AllStrings(config["channels"].items) then Some(NullChannel)
    else if !("admin_password" in config && config["admin_password"].JString? && config["admin_password"].str != "") then Some(NoAdminPassword)
    else None
  }

  /** A null nick makes loading fail (with a NullPointerException) unless an earlier check already failed. */
  lemma NullNickRejected(config: map<string, Json>, n: nat)
    requires "server" in config && config["server"].JString?
    requires "nicks" in config && config["nicks"].JArray? && StringsOrNulls(config["nicks"].items)
    requires n < |config["nicks"].items| && config["nicks"].items[n].JNull?
    ensures Configure(config) == Failure(NullNick)
  {
  }

  /** The name the core command is installed under, before lowercasing. */
  function CoreCommandName(config: map<string, Json>): string
  {
    NonEmptyField(config, "core_command", DefaultCoreCommand)
  }

  /**
   * loadConfiguration, for the fields the dispatcher reads. The core command
   * is removed from the synonym groups under its name as configured, and
   * installed among the responders under its lowercased name.
   */
  function Configure(config: map<string, Json>): (r: Result<Bot, ConfigError>)
    ensures r.Failure? <==> Validate(config).Some?
    ensures r.Failure? ==> r.error == Validate(config).value
    ensures r.Success? ==> && r.value.ready
                           && r.value.prefix != []
                           && r.value.core.token == ""
                           && LowercaseKeys(r.value.responders) && LowercaseKeys(r.value.synonyms)
                           && Lower(CoreCommandName(config)) in r.value.responders
                           && r.value.responders[Lower(CoreCommandName(config))] == Core
    // the fields the dispatcher reads, as loaded
    ensures r.Success? ==> && r.value.prefix == NonEmptyField(config, "command_prefix", DefaultPrefix)
                           && r.value.terminator == StringField(config, "argument_terminator", "")
                           && r.value.defaultPrivate == StringField(config, "default_private", "")
                           && r.value.mentionedResponse == StringField(config, "mentioned_response", "")
                           && r.value.core == NewCore(config["admin_password"].str)
    // the command tables: fixed commands plus the core responder, and every synonym group but the core command's
    ensures r.Success? ==> && r.value.responders == LoadFixed(CommandEntries(config), map[])[Lower(CoreCommandName(config)) := Core]
                           && r.value.synonyms == LoadSynonyms(CommandEntries(config), map[]) - {CoreCommandName(config)}
  {
    match Validate(config)
    case Some(e) => Failure(e)
    case None =>
      var entries := CommandEntries(config);
      var cc := CoreCommandName(config);
      LowerIdempotent(cc);
      var responders := LoadFixed(entries, map[]);
      var synonyms := LoadSynonyms(entries, map[]) - {cc};
      Success(Bot(
        true,
        NonEmptyField(config, "command_prefix", DefaultPrefix),
        StringField(config, "argument_terminator", ""),
        StringField(config, "default_private", ""),
        StringField(config, "mentioned_response", ""),
        responders[Lower(cc) := Core],
        synonyms,
        NewCore(config["admin_password"].str)))
  }

  /** A synonym target that is not in lowercase is never called: responder names all are. */
  lemma UppercaseTargetNeverCalled(bot: Bot, t: string, argument: string)
    requires LowercaseKeys(bot.responders) && Lower(t) != t
    ensures PresentTargets(bot, [t], argument) == []
  {
  }

  /** A JSON array of the given strings. */
  function JStrings(ts: seq<string>): (items: seq<Json>)
    ensures |items| == |ts|
    decreases |ts|
  {
    if ts == [] then [] else [JString(ts[0])] + JStrings(ts[1..])
  }

  /** A loaded synonym group keeps its string targets exactly as written, in order. */
  lemma {:induction false} TargetsAsWritten(ts: seq<string>)
    ensures StringItems(JStrings(ts)) == ts
    decreases |ts|
  {
    if ts != [] {
      var items := JStrings(ts);
      assert items[0] == JString(ts[0]) && items[1..] == JStrings(ts[1..]);
      TargetsAsWritten(ts[1..]);
      assert ts == [ts[0]] + ts[1..];
    }
  }

  /** The string items of two lists, one after the other: the filter keeps the order of the items. */
  lemma {:induction false} StringItemsAppend(a: seq<Json>, b: seq<Json>)
    ensures StringItems(a + b) == StringItems(a) + StringItems(b)
    decreases |a|
  {
    if a == [] {
      assert a + b == b;
    } else {
      assert (a + b)[0] == a[0] && (a + b)[1..] == a[1..] + b;
      StringItemsAppend(a[1..], b);
    }
  }

  /** A single item is kept, as written, exactly when it is a string. */
  lemma StringItemsOne(x: Json)
    ensures StringItems([x]) == if x.JString? then [x.str] else []
  {
    assert [x][1..] == [];
  }

  /** Entry `n` is the last string-valued entry whose name lowercases to `name`. */
  predicate LastStringEntry(entries: seq<(string, Json)>, n: int, name: string)
  {
    && 0 <= n < |entries| && Lower(entries[n].0) == name && entries[n].1.JString?
    && forall m :: n < m < |entries| ==> !(Lower(entries[m].0) == name && entries[m].1.JString?)
  }

  /** The last string-valued entry for a name decides the responder under it: later ones overwrite earlier ones. */
  lemma {:induction false} LoadFixedFinds(entries: seq<(string, Json)>, responders: map<string, Responder>, name: string, n: nat)
    requires LowercaseKeys(responders)
    requires LastStringEntry(entries, n, name)
    ensures name in LoadFixed(entries, responders) && LoadFixed(entries, responders)[name] == Fixed(entries[n].1.str)
    decreases |entries|
  {
    var (k, v) := entries[0];
    LowerIdempotent(k);
    var next := if v.JString? then responders[Lower(k) := Fixed(v.str)] else responders;
    if n == 0 {
      LoadFixedKeeps(entries[1..], next, name);
    } else {
      assert forall m :: n - 1 < m < |entries[1..]| ==> entries[1..][m] == entries[m + 1];
      LoadFixedFinds(entries[1..], next, name, n - 1);
    }
  }

  /** Entries for other names leave a responder in place. */
  lemma {:induction false} LoadFixedKeeps(entries: seq<(string, Json)>, responders: map<string, Responder>, name: string)
    requires LowercaseKeys(responders) && name in responders
    requires forall m :: 0 <= m < |entries| ==> !(Lower(entries[m].0) == name && entries[m].1.JString?)
    ensures name in LoadFixed(entries, responders) && LoadFixed(entries, responders)[name] == responders[name]
    decreases |entries|
  {
    if entries != [] {
      var (k, v) := entries[0];
      LowerIdempotent(k);
      var next := if v.JString? then responders[Lower(k) := Fixed(v.str)] else responders;
      LoadFixedKeeps(entries[1..], next, name);
    }
  }

  /** A name no string-valued entry lowercases to gets no responder. */
  lemma {:induction false} LoadFixedAbsent(entries: seq<(string, Json)>, responders: map<string, Responder>, name: string)
    requires LowercaseKeys(responders) && name !in responders
    requires forall m :: 0 <= m < |entries| ==> !(Lower(entries[m].0) == name && entries[m].1.JString?)
    ensures name !in LoadFixed(entries, responders)
    decreases |entries|
  {
    if entries != [] {
      var (k, v) := entries[0];
      LowerIdempotent(k);
      var next := if v.JString? then responders[Lower(k) := Fixed(v.str)] else responders;
      LoadFixedAbsent(entries[1..], next, name);
    }
  }

  /** Entry `n` is the last array-valued entry whose name lowercases to `name`. */
  predicate LastArrayEntry(entries: seq<(string, Json)>, n: int, name: string)
  {
    && 0 <= n < |entries| && Lower(entries[n].0) == name && entries[n].1.JArray?
    && forall m :: n < m < |entries| ==> !(Lower(entries[m].0) == name && entries[m].1.JArray?)
  }

  /** The last array-valued entry for a name decides its synonym group: its string items, in order. */
  lemma {:induction false} LoadSynonymsFinds(entries: seq<(string, Json)>, synonyms: map<string, seq<string>>, name: string, n: nat)
    requires LowercaseKeys(synonyms)
    requires LastArrayEntry(entries, n, name)
    ensures name in LoadSynonyms(entries, synonyms)
    ensures LoadSynonyms(entries, synonyms)[name] == StringItems(entries[n].1.items)
    decreases |entries|
  {
    var (k, v) := entries[0];
    LowerIdempotent(k);
    var next := if v.JArray? then synonyms[Lower(k) := StringItems(v.items)] else synonyms;
    if n == 0 {
      LoadSynonymsKeeps(entries[1..], next, name);
    } else {
      assert forall m :: n - 1 < m < |entries[1..]| ==> entries[1..][m] == entries[m + 1];
      LoadSynonymsFinds(entries[1..], next, name, n - 1);
    }
  }

  /** Entries for other names, or that are not arrays, leave a synonym group in place. */
  lemma {:induction false} LoadSynonymsKeeps(entries: seq<(string, Json)>, synonyms: map<string, seq<string>>, name: string)
    requires LowercaseKeys(synonyms) && name in synonyms
    requires forall m :: 0 <= m < |entries| ==> !(Lower(entries[m].0) == name && entries[m].1.JArray?)
    ensures name in LoadSynonyms(entries, synonyms) && LoadSynonyms(entries, synonyms)[name] == synonyms[name]
    decreases |entries|
  {
    if entries != [] {
      var (k, v) := entries[0];
      LowerIdempotent(k);
      var next := if v.JArray? then synonyms[Lower(k) := StringItems(v.items)] else synonyms;
      LoadSynonymsKeeps(entries[1..], next, name);
    }
  }

  /** A name no array-valued entry lowercases to gets no synonym group. */
  lemma {:induction false} LoadSynonymsAbsent(entries: seq<(string, Json)>, synonyms: map<string, seq<string>>, name: string)
    requires LowercaseKeys(synonyms) && name !in synonyms
    requires forall m :: 0 <= m < |entries| ==> !(Lower(entries[m].0) == name && entries[m].1.JArray?)
    ensures name !in LoadSynonyms(entries, synonyms)
    decreases |entries|
  {
    if entries != [] {
      var (k, v) := entries[0];
      LowerIdempotent(k);
      var next := if v.JArray? then synonyms[Lower(k) := StringItems(v.items)] else synonyms;
      LoadSynonymsAbsent(entries[1..], next, name);
    }
  }

  /**
   * Command names are matched without regard to case: a command configured
   * as a string under any spelling answers to the lowercased name the
   * extractor produces, unless the core command or a synonym group takes
   * that name.
   */
  lemma ConfiguredCommandAnswers(config: map<string, Json>, key: string, message: string, n: nat)
    requires Validate(config).None?
    requires LastStringEntry(CommandEntries(config), n, Lower(key))
    requires CommandEntries(config)[n] == (key, JString(message))
    requires Lower(key) != Lower(CoreCommandName(config))
    ensures var bot := Configure(config).value;
      Lower(key) in bot.responders && bot.responders[Lower(key)] == Fixed(message)
  {
    LoadFixedFinds(CommandEntries(config), map[], Lower(key), n);
  }

  /**
   * The core command is removed from the synonym groups under its name as
   * configured but installed under its lowercased name; with a mixed-case
   * name, a synonym group of the lowercased name survives and, being looked
   * up first, shadows the core command.
   */
  lemma MixedCaseCoreShadowed(config: map<string, Json>, targets: seq<Json>)
    requires Validate(config).None?
    requires Lower(CoreCommandName(config)) != CoreCommandName(config)
    requires CommandEntries(config) == [(Lower(CoreCommandName(config)), JArray(targets))]
    ensures var bot := Configure(config).value;
      var name := Lower(CoreCommandName(config));
      name in bot.synonyms && bot.synonyms[name] == StringItems(targets) && bot.responders[name] == Core
  {
    var cc := CoreCommandName(config);
    var es := CommandEntries(config);
    LowerIdempotent(cc);
    var m := map[Lower(cc) := StringItems(targets)];
    assert es[1..] == [];
    assert LoadSynonyms(es[1..], m) == m;
    assert LoadSynonyms(es, map[]) == m;
  }

  /** With a lowercase core command name no synonym group can shadow it. */
  lemma LowercaseCoreReached(config: map<string, Json>)
    requires Validate(config).None?
    requires Lower(CoreCommandName(config)) == CoreCommandName(config)
    ensures var bot := Configure(config).value;
      var name := CoreCommandName(config);
      name !in bot.synonyms && bot.responders[name] == Core
  {
  }
}

=== FILE: extractor.dfy ===
/**
 * The command extractor of PCommandBot.processCommands: the pattern
 *
 *   quote(prefix) ([^WS]+?) (WS+ (.*?))? (quote(terminator) | $)      (DOTALL)
 *
 * applied with repeated Matcher.find(), written as an explicit scanner.
 * Backtracking never reaches into the whitespace group: when the character
 * after the command is whitespace the optional group always succeeds, because
 * the lazy argument can always grow up to the end of the message, where `$`
 * holds. So the parse is: the shortest command that is followed by whitespace,
 * the terminator or `$`; then the maximal whitespace run; then the shortest
 * argument that is followed by the terminator or `$`.
 */
module Extractor {
  import opened Wrappers
  import opened Text

  /** `t` occurs literally in `s` at position `i` (Pattern.quote). */
  predicate StartsAt(s: string, i: nat, t: string)
  {
    i + |t| <= |s| && s[i..i + |t|] == t
  }

  predicate IsLineTerminator(c: char)
  {
    c == '\n' || c == '\r' || c == '\U{0085}' || c == '\U{2028}' || c == '\U{2029}'
  }

  /**
   * Java's `$` without MULTILINE: at the end of the input, before a final line
   * terminator (but not between '\r' and '\n'), or before a final "\r\n".
   */
  predicate DollarAt(s: string, i: nat)
  {
    || i == |s|
    || (i + 1 == |s| && IsLineTerminator(s[i]) && !(s[i] == '\n' && i > 0 && s[i - 1] == '\r'))
    || (i + 2 == |s| && s[i] == '\r' && s[i + 1] == '\n')
  }

  /** The terminator alternative: the quoted terminator (tried first) or `$`; with no terminator, `$` alone. */
  predicate TerminatorAt(s: string, term: string, i: nat)
  {
    (term != [] && StartsAt(s, i, term)) || DollarAt(s, i)
  }

  /** A lazy command may stop at `j`: whitespace follows, or the terminator alternative holds. */
  predicate CommandEndsAt(s: string, term: string, j: nat)
    requires j <= |s|
  {
    j == |s| || IsWhitespace(s[j]) || TerminatorAt(s, term, j)
  }

  /** The first position at or after `j` where the lazy command can stop. */
  function CommandEnd(s: string, term: string, j: nat): (r: nat)
    requires j <= |s|
    ensures j <= r <= |s|
    ensures CommandEndsAt(s, term, r)
    ensures forall x :: j <= x < r ==> !CommandEndsAt(s, term, x)
    decreases |s| - j
  {
    if CommandEndsAt(s, term, j) then j else CommandEnd(s, term, j + 1)
  }

  /** The first position at or after `k` where the lazy argument can stop. */
  function ArgumentEnd(s: string, term: string, k: nat): (r: nat)
    requires k <= |s|
    ensures k <= r <= |s|
    ensures TerminatorAt(s, term, r)
    ensures forall x :: k <= x < r ==> !TerminatorAt(s, term, x)
    decreases |s| - k
  {
    if TerminatorAt(s, term, k) then k else ArgumentEnd(s, term, k + 1)
  }

  /** Where the match ends after the terminator alternative at `p`: past the terminator if it was consumed. */
  function TerminatorEnd(s: string, term: string, p: nat): nat
  {
    if term != [] && StartsAt(s, p, term) then p + |term| else p
  }

  datatype Span = Span(lo: nat, hi: nat)

  /**
   * One match of the pattern: it starts at `start` (where the prefix is), the
   * command (group 1) runs up to `commandEnd`, the argument (group 3) spans
   * `argument` when the optional group took part, and the match ends at `end`.
   */
  datatype Hit = Hit(start: nat, commandEnd: nat, argument: Option<Span>, end: nat)

  /**
   * The parse the backtracking matcher chooses for a match that begins at
   * `h.start`, stated declaratively.
   */
  ghost predicate Parses(s: string, prefix: string, term: string, h: Hit)
  {
    var c0 := h.start + |prefix|;
    && StartsAt(s, h.start, prefix)
    && c0 < h.commandEnd <= |s|
    // group 1: non-empty, no whitespace, and the shortest that lets the rest match
    && (forall x :: c0 <= x < h.commandEnd ==> !IsWhitespace(s[x]))
    && CommandEndsAt(s, term, h.commandEnd)
    && (forall x :: c0 < x < h.commandEnd ==> !CommandEndsAt(s, term, x))
    // group 2 takes part exactly when whitespace follows the command
    && (h.argument.Some? <==> h.commandEnd < |s| && IsWhitespace(s[h.commandEnd]))
    && match h.argument
       case None =>
         h.end == TerminatorEnd(s, term, h.commandEnd)
       case Some(sp) =>
         && h.commandEnd < sp.lo <= sp.hi <= |s|
         // the whitespace run is maximal
         && (forall x :: h.commandEnd <= x < sp.lo ==> IsWhitespace(s[x]))
         && (sp.lo == |s| || !IsWhitespace(s[sp.lo]))
         // group 3 is the shortest argument followed by the terminator or `$`
         && TerminatorAt(s, term, sp.hi)
         && (forall x :: sp.lo <= x < sp.hi ==> !TerminatorAt(s, term, x))
         && h.end == TerminatorEnd(s, term, sp.hi)
  }

  /**
   * The pattern matches at `i` exactly when the prefix occurs there and a
   * non-whitespace character follows it: group 1 needs one such character,
   * and once it has one the rest can always match (`$` holds at the end).
   */
  predicate MatchesAt(s: string, prefix: string, i: nat)
  {
    StartsAt(s, i, prefix) && i + |prefix| < |s| && !IsWhitespace(s[i + |prefix|])
  }

  /** The match the backtracking matcher finds at a position where the pattern matches. */
  function HitAt(s: string, prefix: string, term: string, i: nat): (h: Hit)
    requires MatchesAt(s, prefix, i)
    ensures h.start == i < h.end <= |s|
    ensures ValidHit(s, prefix, h)
  {
    var c0 := i + |prefix|;
    var j := CommandEnd(s, term, c0 + 1);
    if j < |s| && IsWhitespace(s[j]) then
      var k := WhitespaceRunEnd(s, j);
      var m := ArgumentEnd(s, term, k);
      Hit(i, j, Some(Span(k, m)), TerminatorEnd(s, term, m))
    else
      Hit(i, j, None, TerminatorEnd(s, term, j))
  }

  /** The match found by a find() attempt at position `i`, if any. */
  function MatchAt(s: string, prefix: string, term: string, i: nat): Option<Hit>
  {
    if MatchesAt(s, prefix, i) then Some(HitAt(s, prefix, term, i)) else None
  }

  /** The hit computed at a matching position is the parse the regex semantics prescribes. */
  lemma HitAtParses(s: string, prefix: string, term: string, i: nat)
    requires MatchesAt(s, prefix, i)
    ensures Parses(s, prefix, term, HitAt(s, prefix, term, i))
  {
    var c0 := i + |prefix|;
    var j := CommandEnd(s, term, c0 + 1);
    forall x | c0 <= x < j
      ensures !IsWhitespace(s[x])
    {
      if x > c0 {
        assert !CommandEndsAt(s, term, x);
      }
    }
  }

  /** Matcher.find() from `from`: the leftmost position where the pattern matches. */
  function NextMatch(s: string, prefix: string, from: nat): (p: Option<nat>)
    requires from <= |s|
    ensures p.None? ==> forall i :: from <= i <= |s| ==> !MatchesAt(s, prefix, i)
    ensures p.Some? ==> from <= p.value <= |s| && MatchesAt(s, prefix, p.value)
    ensures p.Some? ==> forall i :: from <= i < p.value ==> !MatchesAt(s, prefix, i)
    decreases |s| - from
  {
    if MatchesAt(s, prefix, from) then Some(from)
    else if from == |s| then None
    else NextMatch(s, prefix, from + 1)
  }

  /**
   * A list of matches as successive find() calls from `from` return them:
   * each is the match at its own start, inside the message, and each starts
   * at or after the end of the one before.
   */
  predicate Chained(s: string, prefix: string, term: string, from: nat, hs: seq<Hit>)
  {
    && (forall n :: 0 <= n < |hs| ==> from <= hs[n].start < hs[n].end <= |s| && ValidHit(s, prefix, hs[n]))
    && (forall n :: 0 < n < |hs| ==> hs[n - 1].end <= hs[n].start)
    && (forall n :: 0 <= n < |hs| ==> MatchesAt(s, prefix, hs[n].start) && hs[n] == HitAt(s, prefix, term, hs[n].start))
  }

  /** All matches, left to right: each find() resumes where the previous match ended. */
  function Hits(s: string, prefix: string, term: string, from: nat): (hs: seq<Hit>)
    requires from <= |s|
    ensures Chained(s, prefix, term, from, hs)
    decreases |s| - from
  {
    match NextMatch(s, prefix, from)
    case None => []
    case Some(i) =>
      var h := HitAt(s, prefix, term, i);
      var rest := Hits(s, prefix, term, h.end);
      ChainedCons(s, prefix, term, from, h, rest);
      [h] + rest
  }

  /** A match followed by the matches after its end is a chain. */
  lemma ChainedCons(s: string, prefix: string, term: string, from: nat, h: Hit, rest: seq<Hit>)
    requires from <= h.start < h.end <= |s| && ValidHit(s, prefix, h)
    requires MatchesAt(s, prefix, h.start) && h == HitAt(s, prefix, term, h.start)
    requires Chained(s, prefix, term, h.end, rest)
    ensures Chained(s, prefix, term, from, [h] + rest)
  {
    var hs := [h] + rest;
    forall n | 0 <= n < |hs|
      ensures from <= hs[n].start < hs[n].end <= |s| && ValidHit(s, prefix, hs[n])
      ensures MatchesAt(s, prefix, hs[n].start) && hs[n] == HitAt(s, prefix, term, hs[n].start)
      ensures n > 0 ==> hs[n - 1].end <= hs[n].start
    {
      if n > 0 {
        assert hs[n] == rest[n - 1];
        if n > 1 {
          assert hs[n - 1] == rest[n - 2];
        }
      }
    }
  }

  /** The position where the n-th find() starts scanning. */
  function ScanStart(hs: seq<Hit>, from: nat, n: nat): nat
    requires n <= |hs|
  {
    if n == 0 then from else hs[n - 1].end
  }

  /**
   * The matches are the leftmost ones: no match can begin between the place
   * where a find() starts scanning and the match it returns, nor after the
   * last match.
   */
  lemma {:induction false} HitsLeftmost(s: string, prefix: string, term: string, from: nat)
    requires from <= |s|
    ensures var hs := Hits(s, prefix, term, from);
      forall n, i :: 0 <= n < |hs| && ScanStart(hs, from, n) <= i < hs[n].start ==> !MatchesAt(s, prefix, i)
    ensures var hs := Hits(s, prefix, term, from);
      forall i :: ScanStart(hs, from, |hs|) <= i <= |s| ==> !MatchesAt(s, prefix, i)
    decreases |s| - from
  {
    var hs := Hits(s, prefix, term, from);
    match NextMatch(s, prefix, from)
    case None =>
    case Some(p) =>
      var h := HitAt(s, prefix, term, p);
      var rest := Hits(s, prefix, term, h.end);
      HitsLeftmost(s, prefix, term, h.end);
      assert hs == [h] + rest;
      forall n, i | 0 <= n < |hs| && ScanStart(hs, from, n) <= i < hs[n].start
        ensures !MatchesAt(s, prefix, i)
      {
        if n > 0 {
          assert ScanStart(hs, from, n) == ScanStart(rest, h.end, n - 1);
          assert hs[n] == rest[n - 1];
        }
      }
      assert ScanStart(hs, from, |hs|) == ScanStart(rest, h.end, |rest|);
  }

  /** A command with its name lowercased and its argument supertrimmed ("" when group 3 is absent). */
  datatype Command = Command(name: string, argument: string)

  /** The spans of a hit lie inside the message. */
  predicate ValidHit(s: string, prefix: string, h: Hit)
  {
    && h.start + |prefix| <= h.commandEnd <= |s|
    && (h.argument.Some? ==> h.argument.value.lo <= h.argument.value.hi <= |s|)
  }

  /**
   * The command of one match: group 1 lowercased (same length, no upper-case
   * letter left) and group 3 with its leading whitespace dropped, or "" when
   * the optional group did not take part.
   */
  function CommandOf(s: string, prefix: string, h: Hit): (c: Command)
    requires ValidHit(s, prefix, h)
    ensures Lower(c.name) == c.name && |c.name| == h.commandEnd - (h.start + |prefix|)
    ensures h.argument.None? ==> c.argument == ""
    ensures h.argument.Some? ==>
      var group := s[h.argument.value.lo..h.argument.value.hi];
      && |c.argument| <= |group| && c.argument == group[|group| - |c.argument|..]
      && (c.argument == [] || !IsWhitespace(c.argument[0]))
  {
    var name := Lower(s[h.start + |prefix|..h.commandEnd]);
    LowerIdempotent(s[h.start + |prefix|..h.commandEnd]);
    match h.argument
    case None => Command(name, "")
    case Some(sp) => Command(name, Supertrim(s[sp.lo..sp.hi]))
  }

  /** The commands of a list of hits, in order. */
  function CommandsOf(s: string, prefix: string, hs: seq<Hit>): (cs: seq<Command>)
    requires forall n :: 0 <= n < |hs| ==> ValidHit(s, prefix, hs[n])
    ensures |cs| == |hs|
    decreases |hs|
  {
    if hs == [] then [] else [CommandOf(s, prefix, hs[0])] + CommandsOf(s, prefix, hs[1..])
  }

  /**
   * The commands found by the find() calls that start scanning at `from`:
   * the command of the leftmost match, then the commands after its end.
   */
  function ExtractFrom(s: string, prefix: string, term: string, from: nat): seq<Command>
    requires from <= |s|
    decreases |s| - from
  {
    match NextMatch(s, prefix, from)
    case None => []
    case Some(i) =>
      var h := HitAt(s, prefix, term, i);
      [CommandOf(s, prefix, h)] + ExtractFrom(s, prefix, term, h.end)
  }

  /** The extracted commands are the commands of the matches Hits lists. */
  lemma {:induction false} ExtractFromHits(s: string, prefix: string, term: string, from: nat)
    requires from <= |s|
    ensures ExtractFrom(s, prefix, term, from) == CommandsOf(s, prefix, Hits(s, prefix, term, from))
    decreases |s| - from
  {
    match NextMatch(s, prefix, from)
    case None =>
    case Some(i) =>
      var h := HitAt(s, prefix, term, i);
      var rest := Hits(s, prefix, term, h.end);
      ExtractFromHits(s, prefix, term, h.end);
      assert Hits(s, prefix, term, from) == [h] + rest;
      assert ([h] + rest)[1..] == rest;
  }

  /**
   * Every command processCommands extracts from a message, in order: one
   * command per match of the chain of find() calls from the start.
   */
  function Extract(s: string, prefix: string, term: string): (cs: seq<Command>)
    ensures cs == CommandsOf(s, prefix, Hits(s, prefix, term, 0))
  {
    ExtractFromHits(s, prefix, term, 0);
    ExtractFrom(s, prefix, term, 0)
  }

  /** A command name as processCommands looks it up: non-empty, free of whitespace and lowercase. */
  predicate WellFormedName(name: string)
  {
    && name != [] && Lower(name) == name
    && forall x :: 0 <= x < |name| ==> !IsWhitespace(name[x])
  }

  /** The name of the command of a single match is well formed. */
  lemma HitName(s: string, prefix: string, term: string, i: nat)
    requires MatchesAt(s, prefix, i)
    ensures WellFormedName(CommandOf(s, prefix, HitAt(s, prefix, term, i)).name)
  {
    var h := HitAt(s, prefix, term, i);
    HitAtParses(s, prefix, term, i);
    var raw := s[h.start + |prefix|..h.commandEnd];
    LowerIdempotent(raw);
    forall x | 0 <= x < |raw|
      ensures !IsWhitespace(Lower(raw)[x])
    {
      assert raw[x] == s[h.start + |prefix| + x];
      LowerKeepsWhitespace(raw[x]);
    }
  }

  /** Each command name extracted from `from` on is non-empty, free of whitespace and already lowercase. */
  lemma {:induction false} ExtractedNamesFrom(s: string, prefix: string, term: string, from: nat)
    requires from <= |s|
    ensures var cs := ExtractFrom(s, prefix, term, from);
      forall n :: 0 <= n < |cs| ==> WellFormedName(cs[n].name)
    decreases |s| - from
  {
    match NextMatch(s, prefix, from)
    case None =>
    case Some(i) =>
      var h := HitAt(s, prefix, term, i);
      HitName(s, prefix, term, i);
      ExtractedNamesFrom(s, prefix, term, h.end);
      var rest := ExtractFrom(s, prefix, term, h.end);
      ExtractFromStep(s, prefix, term, from, i);
      ConsNames(CommandOf(s, prefix, h), rest);
  }

  /** One find() step of the extraction: an unfolding of ExtractFrom, named for the proofs that use it. */
  lemma ExtractFromStep(s: string, prefix: string, term: string, from: nat, i: nat)
    requires from <= |s| && NextMatch(s, prefix, from) == Some(i)
    ensures ExtractFrom(s, prefix, term, from)
      == [CommandOf(s, prefix, HitAt(s, prefix, term, i))] + ExtractFrom(s, prefix, term, HitAt(s, prefix, term, i).end)
  {
  }

  lemma ConsNames(c: Command, rest: seq<Command>)
    requires WellFormedName(c.name)
    requires forall n :: 0 <= n < |rest| ==> WellFormedName(rest[n].name)
    ensures forall n :: 0 <= n < |[c] + rest| ==> WellFormedName(([c] + rest)[n].name)
  {
    var cs := [c] + rest;
    forall n | 0 <= n < |cs|
      ensures WellFormedName(cs[n].name)
    {
      if n > 0 {
        assert cs[n] == rest[n - 1];
      }
    }
  }

  /** Each extracted command name is non-empty, free of whitespace and already lowercase. */
  lemma ExtractedNames(s: string, prefix: string, term: string)
    ensures forall n :: 0 <= n < |Extract(s, prefix, term)| ==> WellFormedName(Extract(s, prefix, term)[n].name)
  {
    ExtractedNamesFrom(s, prefix, term, 0);
    assert Extract(s, prefix, term) == ExtractFrom(s, prefix, term, 0);
  }

  lemma LineTerminatorIsWhitespace(c: char)
    requires IsLineTerminator(c)
    ensures IsWhitespace(c)
  {
  }

  /** Where `$` holds, only line terminators remain. */
  lemma DollarTail(s: string, i: nat)
    requires DollarAt(s, i)
    ensures forall x :: i <= x < |s| ==> IsLineTerminator(s[x]) && IsWhitespace(s[x])
  {
  }

  /**
   * The supertrim applied to group 3 never changes it: the argument begins
   * right after a maximal whitespace run, so whitespace in front of a
   * terminator stays in the argument.
   */
  lemma ArgumentIsRawGroup(s: string, prefix: string, term: string, i: nat)
    requires MatchesAt(s, prefix, i)
    requires HitAt(s, prefix, term, i).argument.Some?
    ensures var sp := HitAt(s, prefix, term, i).argument.value;
      CommandOf(s, prefix, HitAt(s, prefix, term, i)).argument == s[sp.lo..sp.hi]
  {
    var sp := HitAt(s, prefix, term, i).argument.value;
    HitAtParses(s, prefix, term, i);
    var a := s[sp.lo..sp.hi];
    if a != [] {
      assert a[0] == s[sp.lo];
      SupertrimKeepsTrailing(a);
    }
  }

  /** With no terminator configured, nothing but line terminators can follow a match. */
  lemma NoTerminatorMatchRunsToEnd(s: string, prefix: string, i: nat)
    requires MatchesAt(s, prefix, i)
    ensures var h := HitAt(s, prefix, [], i);
      forall x :: h.end <= x < |s| ==> IsWhitespace(s[x])
  {
    var h := HitAt(s, prefix, [], i);
    HitAtParses(s, prefix, [], i);
    match h.argument
    case None =>
    case Some(sp) =>
      assert h.end == sp.hi;
      DollarTail(s, sp.hi);
  }

  /** No match can start where only whitespace is left. */
  lemma NoMatchInWhitespaceTail(s: string, prefix: string, term: string, from: nat)
    requires from <= |s|
    requires forall x :: from <= x < |s| ==> IsWhitespace(s[x])
    ensures Hits(s, prefix, term, from) == []
    ensures ExtractFrom(s, prefix, term, from) == []
  {
    assert NextMatch(s, prefix, from).None? by {
      forall i | from <= i <= |s|
        ensures !MatchesAt(s, prefix, i)
      {
        if i + |prefix| < |s| {
          assert IsWhitespace(s[i + |prefix|]);
        }
      }
    }
  }

  /**
   * With an empty terminator only the end of the message ends an argument, so
   * a message yields at most one command.
   */
  lemma NoTerminatorAtMostOneCommand(s: string, prefix: string)
    ensures |Extract(s, prefix, [])| <= 1
  {
    match NextMatch(s, prefix, 0)
    case None =>
    case Some(i) =>
      var h := HitAt(s, prefix, [], i);
      NoTerminatorMatchRunsToEnd(s, prefix, i);
      NoMatchInWhitespaceTail(s, prefix, [], h.end);
  }

  /** The minimal positions a hit is built from are determined by their defining properties. */
  lemma HitAtFromPositions(s: string, prefix: string, term: string, i: nat, j: nat, k: nat, m: nat)
    requires MatchesAt(s, prefix, i)
    requires i + |prefix| < j < |s| && IsWhitespace(s[j])
    requires forall x :: i + |prefix| < x < j ==> !CommandEndsAt(s, term, x)
    requires j < k <= |s| && (forall x :: j <= x < k ==> IsWhitespace(s[x])) && (k == |s| || !IsWhitespace(s[k]))
    requires k <= m <= |s| && TerminatorAt(s, term, m)
    requires forall x :: k <= x < m ==> !TerminatorAt(s, term, x)
    ensures HitAt(s, prefix, term, i) == Hit(i, j, Some(Span(k, m)), TerminatorEnd(s, term, m))
  {
    assert CommandEndsAt(s, term, j);
    assert CommandEnd(s, term, i + |prefix| + 1) == j;
    assert WhitespaceRunEnd(s, j) == k;
    assert ArgumentEnd(s, term, k) == m;
  }

  /**
   * When the pattern matches where scanning starts, the first command comes
   * from that match: an unfolding of ExtractFrom, named for the proofs that use it.
   */
  lemma ExtractFromMatch(s: string, prefix: string, term: string, from: nat)
    requires from <= |s| && MatchesAt(s, prefix, from)
    ensures ExtractFrom(s, prefix, term, from)
      == [CommandOf(s, prefix, HitAt(s, prefix, term, from))] + ExtractFrom(s, prefix, term, HitAt(s, prefix, term, from).end)
  {
  }

  /** No occurrence of the terminator starts at a position in [lo, hi). */
  ghost predicate NoTerminatorIn(s: string, term: string, lo: nat, hi: nat)
  {
    forall x :: lo <= x < hi ==> !(term != [] && StartsAt(s, x, term))
  }

  /** `$` cannot hold at a position at least three characters before the end. */
  lemma NoDollarFarFromEnd(s: string, x: nat)
    requires x + 2 < |s|
    ensures !DollarAt(s, x)
  {
  }

  /** `$` holds only at the end of a message whose last character is not a line terminator. */
  lemma DollarOnlyAtEnd(s: string, x: nat)
    requires s != [] ==> !IsLineTerminator(s[|s| - 1])
    requires x < |s|
    ensures !DollarAt(s, x)
  {
  }

  /** Inside a command without whitespace or a terminator occurrence, the lazy command cannot stop. */
  lemma CommandCannotStop(s: string, term: string, lo: nat, hi: nat)
    requires hi <= |s|
    requires forall x :: lo <= x < hi ==> !IsWhitespace(s[x])
    requires NoTerminatorIn(s, term, lo, hi)
    ensures forall x :: lo <= x < hi ==> !CommandEndsAt(s, term, x)
  {
    forall x | lo <= x < hi
      ensures !CommandEndsAt(s, term, x)
    {
      assert !IsWhitespace(s[x]);
      if DollarAt(s, x) {
        DollarTail(s, x);
      }
    }
  }

  /**
   * The last command of a message: a command, a whitespace run and an
   * argument that runs to the end with no terminator after the prefix give
   * exactly that one command (a message such as "P cmd arg1 arg2").
   */
  lemma LastCommandAt(s: string, prefix: string, term: string, from: nat, j: nat, k: nat)
    requires MatchesAt(s, prefix, from)
    requires from + |prefix| < j < k <= |s|
    requires forall x :: from + |prefix| <= x < j ==> !IsWhitespace(s[x])
    requires forall x :: j <= x < k ==> IsWhitespace(s[x])
    requires k == |s| || !IsWhitespace(s[k])
    requires forall x :: k <= x < |s| ==> !DollarAt(s, x)
    requires NoTerminatorIn(s, term, from + |prefix| + 1, |s| + 1)
    ensures ExtractFrom(s, prefix, term, from) == [Command(Lower(s[from + |prefix|..j]), s[k..])]
  {
    LastHitAt(s, prefix, term, from, j, k);
    CommandOfLastHit(s, prefix, term, from, j, k);
  }

  /** A match whose argument runs to the end of the message is the last one. */
  lemma CommandOfLastHit(s: string, prefix: string, term: string, from: nat, j: nat, k: nat)
    requires MatchesAt(s, prefix, from)
    requires from + |prefix| <= j <= |s| && k <= |s|
    requires HitAt(s, prefix, term, from) == Hit(from, j, Some(Span(k, |s|)), |s|)
    ensures ExtractFrom(s, prefix, term, from) == [Command(Lower(s[from + |prefix|..j]), s[k..])]
  {
    var cmd, arg := s[from + |prefix|..j], s[k..];
    assert s[k..|s|] == arg;
    CommandOfKnownHit(s, prefix, term, from, j, k, |s|, |s|, cmd, arg);
    NoMatchInWhitespaceTail(s, prefix, term, |s|);
    assert [Command(Lower(cmd), arg)] + [] == [Command(Lower(cmd), arg)];
  }

  /** The hit of a final command: its argument runs to the end of the message. */
  lemma LastHitAt(s: string, prefix: string, term: string, from: nat, j: nat, k: nat)
    requires MatchesAt(s, prefix, from)
    requires from + |prefix| < j < k <= |s|
    requires forall x :: from + |prefix| <= x < j ==> !IsWhitespace(s[x])
    requires forall x :: j <= x < k ==> IsWhitespace(s[x])
    requires k == |s| || !IsWhitespace(s[k])
    requires forall x :: k <= x < |s| ==> !DollarAt(s, x)
    requires NoTerminatorIn(s, term, from + |prefix| + 1, |s| + 1)
    ensures HitAt(s, prefix, term, from) == Hit(from, j, Some(Span(k, |s|)), |s|)
  {
    CommandCannotStop(s, term, from + |prefix| + 1, j);
    assert forall x :: k <= x < |s| ==> !TerminatorAt(s, term, x);
    assert TerminatorAt(s, term, |s|);
    HitAtFromPositions(s, prefix, term, from, j, k, |s|);
  }

  /** The hit of a command closed by the terminator that starts at `m`. */
  lemma TerminatedHitAt(s: string, prefix: string, term: string, from: nat, j: nat, k: nat, m: nat)
    requires MatchesAt(s, prefix, from)
    requires from + |prefix| < j < k <= m && m + 2 <= |s|
    requires forall x :: from + |prefix| <= x < j ==> !IsWhitespace(s[x])
    requires forall x :: j <= x < k ==> IsWhitespace(s[x])
    requires !IsWhitespace(s[k])
    requires term != [] && StartsAt(s, m, term)
    requires NoTerminatorIn(s, term, from + |prefix| + 1, m)
    ensures HitAt(s, prefix, term, from) == Hit(from, j, Some(Span(k, m)), TerminatorEnd(s, term, m))
    ensures TerminatorEnd(s, term, m) == m + |term|
  {
    CommandCannotStop(s, term, from + |prefix| + 1, j);
    forall x | k <= x < m
      ensures !TerminatorAt(s, term, x)
    {
      NoDollarFarFromEnd(s, x);
    }
    HitAtFromPositions(s, prefix, term, from, j, k, m);
  }

  /** The commands of a message whose match at `from` is known, with its command spelled `cmd` and its argument `arg`. */
  lemma CommandOfKnownHit(s: string, prefix: string, term: string, from: nat, j: nat, k: nat, m: nat, e: nat, cmd: string, arg: string)
    requires MatchesAt(s, prefix, from)
    requires HitAt(s, prefix, term, from) == Hit(from, j, Some(Span(k, m)), e)
    requires from + |prefix| <= j <= |s| && k <= m <= |s|
    requires s[from + |prefix|..j] == cmd && s[k..m] == arg
    ensures e <= |s|
    ensures ExtractFrom(s, prefix, term, from) == [Command(Lower(cmd), arg)] + ExtractFrom(s, prefix, term, e)
  {
    KnownHitCommand(s, prefix, term, from, j, k, m, e, cmd, arg);
    ExtractFromMatch(s, prefix, term, from);
  }

  /** The command of a match known by its positions is spelled by those positions. */
  lemma KnownHitCommand(s: string, prefix: string, term: string, from: nat, j: nat, k: nat, m: nat, e: nat, cmd: string, arg: string)
    requires MatchesAt(s, prefix, from)
    requires HitAt(s, prefix, term, from) == Hit(from, j, Some(Span(k, m)), e)
    requires from + |prefix| <= j <= |s| && k <= m <= |s|
    requires s[from + |prefix|..j] == cmd && s[k..m] == arg
    ensures e <= |s|
    ensures CommandOf(s, prefix, HitAt(s, prefix, term, from)) == Command(Lower(cmd), arg)
  {
    ArgumentIsRawGroup(s, prefix, term, from);
  }

  /**
   * A command whose argument is closed by the terminator at `m`: the match
   * consumes the terminator and scanning resumes right after it, at
   * TerminatorEnd(s, term, m) == m + |term| (the first command of a message
   * such as "P cmda argA T P cmdb argB").
   */
  lemma TerminatedCommandAt(s: string, prefix: string, term: string, from: nat, j: nat, k: nat, m: nat)
    requires MatchesAt(s, prefix, from)
    requires from + |prefix| < j < k <= m && m + 2 <= |s|
    requires forall x :: from + |prefix| <= x < j ==> !IsWhitespace(s[x])
    requires forall x :: j <= x < k ==> IsWhitespace(s[x])
    requires !IsWhitespace(s[k])
    requires term != [] && StartsAt(s, m, term)
    requires NoTerminatorIn(s, term, from + |prefix| + 1, m)
    ensures ExtractFrom(s, prefix, term, from)
      == [Command(Lower(s[from + |prefix|..j]), s[k..m])] + ExtractFrom(s, prefix, term, TerminatorEnd(s, term, m))
  {
    TerminatedHitAt(s, prefix, term, from, j, k, m);
    CommandOfKnownHit(s, prefix, term, from, j, k, m, TerminatorEnd(s, term, m), s[from + |prefix|..j], s[k..m]);
  }
}

=== FILE: mentions.dfy ===
/**
 * Mention extraction (PCommandBot.getMentions): the message is split at every
 * run of characters that cannot occur in a nick, and the pieces whose
 * lowercase form is a user of the channel are kept, in message order, with
 * their original case and with duplicates.
 */
module Mentions {
  import opened Text

  /** The characters NON_NICK_CHARACTERS does not match: letters, digits and []\`_^{|}. */
  predicate IsNickChar(c: char)
  {
    || ('a' <= c <= 'z') || ('A' <= c <= 'Z') || ('0' <= c <= '9')
    || c == '[' || c == ']' || c == '\\' || c == '`' || c == '_' || c == '^'
    || c == '{' || c == '|' || c == '}'
  }

  predicate AllNickChars(s: string)
  {
    forall i :: 0 <= i < |s| ==> IsNickChar(s[i])
  }

  /** The end of the run of nick characters that starts at `i`. */
  function NickRunEnd(s: string, i: nat): (k: nat)
    requires i <= |s|
    ensures i <= k <= |s|
    ensures forall x :: i <= x < k ==> IsNickChar(s[x])
    ensures k == |s| || !IsNickChar(s[k])
    decreases |s| - i
  {
    if i == |s| || !IsNickChar(s[i]) then i else NickRunEnd(s, i + 1)
  }

  /**
   * The non-empty pieces of the message between non-nick characters, in
   * order. (Java's split also yields empty pieces, between two separators or
   * before a leading one; getMentions drops them.)
   */
  function NickTokens(s: string): (ts: seq<string>)
    // tokens are separated from each other, so there are at most (|s| + 1) / 2 of them
    ensures 2 * |ts| <= |s| + 1
    decreases |s|
  {
    var k := NickRunEnd(s, 0);
    if k == |s| then Head(s, k) else Head(s, k) + NickTokens(s[k + 1..])
  }

  /** The token that ends at `k`, if the run before it is not empty. */
  function Head(s: string, k: nat): seq<string>
    requires k <= |s|
  {
    if k == 0 then [] else [s[..k]]
  }

  lemma TokensAtSeparator(s: string, k: nat)
    requires k < |s| && k == NickRunEnd(s, 0)
    ensures NickTokens(s) == Head(s, k) + NickTokens(s[k + 1..])
  {
  }

  lemma TokensWhole(s: string)
    requires NickRunEnd(s, 0) == |s|
    ensures NickTokens(s) == Head(s, |s|)
  {
  }

  /** Every token is a non-empty run of nick characters. */
  lemma {:induction false} TokensWellFormed(s: string)
    ensures forall n :: 0 <= n < |NickTokens(s)| ==> NickTokens(s)[n] != [] && AllNickChars(NickTokens(s)[n])
    decreases |s|
  {
    var k := NickRunEnd(s, 0);
    HeadWellFormed(s, k);
    if k == |s| {
      TokensWhole(s);
    } else {
      TokensAtSeparator(s, k);
      TokensWellFormed(s[k + 1..]);
      WellFormedAppend(Head(s, k), NickTokens(s[k + 1..]));
    }
  }

  /** Every token of the list is a non-empty run of nick characters. */
  predicate WellFormedTokens(ts: seq<string>)
  {
    forall n :: 0 <= n < |ts| ==> ts[n] != [] && AllNickChars(ts[n])
  }

  lemma HeadWellFormed(s: string, k: nat)
    requires k == NickRunEnd(s, 0)
    ensures WellFormedTokens(Head(s, k))
  {
    assert forall x :: 0 <= x < k ==> s[..k][x] == s[x];
  }

  lemma WellFormedAppend(a: seq<string>, b: seq<string>)
    requires WellFormedTokens(a) && WellFormedTokens(b)
    ensures WellFormedTokens(a + b)
  {
    assert forall n :: |a| <= n < |a + b| ==> (a + b)[n] == b[n - |a|];
  }

  /** A word made only of nick characters is a single token. */
  lemma WordIsToken(w: string)
    requires w != [] && AllNickChars(w)
    ensures NickTokens(w) == [w]
  {
    NickRunEndAll(w, 0);
    assert w[..|w|] == w;
  }

  lemma {:induction false} NickRunEndAll(s: string, i: nat)
    requires i <= |s| && forall x :: i <= x < |s| ==> IsNickChar(s[x])
    ensures NickRunEnd(s, i) == |s|
    decreases |s| - i
  {
    if i < |s| {
      NickRunEndAll(s, i + 1);
    }
  }

  /** A message with no nick characters has no tokens. */
  lemma {:induction false} NoNickCharsNoTokens(s: string)
    requires forall i :: 0 <= i < |s| ==> !IsNickChar(s[i])
    ensures NickTokens(s) == []
    decreases |s|
  {
    if s != [] {
      assert NickRunEnd(s, 0) == 0;
      NoNickCharsNoTokens(s[1..]);
    }
  }

  /** Splitting at a non-nick character: the tokens of the two sides, concatenated. */
  lemma {:induction false} TokensSplit(a: string, c: char, b: string)
    requires !IsNickChar(c)
    ensures NickTokens(a + [c] + b) == NickTokens(a) + NickTokens(b)
    decreases |a|, 1
  {
    var k := NickRunEnd(a, 0);
    FirstRunOfJoin(a, c, b);
    if k == |a| {
      SplitAfterWhole(a, c, b);
    } else {
      SplitAfterRun(a, c, b, k);
    }
  }

  /** The case of TokensSplit where `a` is a single run. */
  lemma SplitAfterWhole(a: string, c: char, b: string)
    requires !IsNickChar(c) && NickRunEnd(a, 0) == |a|
    requires NickRunEnd(a + [c] + b, 0) == |a| && Head(a + [c] + b, |a|) == Head(a, |a|)
    ensures NickTokens(a + [c] + b) == NickTokens(a) + NickTokens(b)
  {
    var s := a + [c] + b;
    TokensAtSeparator(s, |a|);
    assert s[|a| + 1..] == b;
    TokensWhole(a);
  }

  /** The case of TokensSplit where the first run of `a` ends at a separator inside `a`. */
  lemma {:induction false} SplitAfterRun(a: string, c: char, b: string, k: nat)
    requires !IsNickChar(c) && k < |a| && k == NickRunEnd(a, 0)
    requires NickRunEnd(a + [c] + b, 0) == k && Head(a + [c] + b, k) == Head(a, k)
    ensures NickTokens(a + [c] + b) == NickTokens(a) + NickTokens(b)
    decreases |a|, 0
  {
    var s := a + [c] + b;
    var a' := a[k + 1..];
    TokensAtSeparator(s, k);
    TailOfJoin(a, c, b, k);
    TokensSplit(a', c, b);
    TokensAtSeparator(a, k);
    ConcatAssoc(Head(a, k), NickTokens(a'), NickTokens(b));
  }

  lemma TailOfJoin(a: string, c: char, b: string, k: nat)
    requires k < |a|
    ensures (a + [c] + b)[k + 1..] == a[k + 1..] + [c] + b
  {
  }

  lemma ConcatAssoc<T>(x: seq<T>, y: seq<T>, z: seq<T>)
    ensures x + (y + z) == (x + y) + z
  {
  }

  /** The first run of `a + [c] + b` is the first run of `a`. */
  lemma FirstRunOfJoin(a: string, c: char, b: string)
    requires !IsNickChar(c)
    ensures NickRunEnd(a + [c] + b, 0) == NickRunEnd(a, 0)
    ensures Head(a + [c] + b, NickRunEnd(a, 0)) == Head(a, NickRunEnd(a, 0))
  {
    var s := a + [c] + b;
    var k := NickRunEnd(a, 0);
    assert s[..|a|] == a;
    RunEndPrefix(s, a, 0);
    assert s[..k] == a[..k];
  }

  /** The run end is found inside `a` when `a` is followed by a non-nick character. */
  lemma {:induction false} RunEndPrefix(s: string, a: string, i: nat)
    requires i <= |a| < |s| && s[..|a|] == a && !IsNickChar(s[|a|])
    ensures NickRunEnd(s, i) == NickRunEnd(a, i)
    decreases |a| - i
  {
    if i < |a| {
      assert s[i] == a[i];
      RunEndPrefix(s, a, i + 1);
    }
  }

  /** The tokens of a message joined from words with single separators between them. */
  lemma TokensOfWords(w1: string, c: char, w2: string)
    requires w1 != [] && AllNickChars(w1) && w2 != [] && AllNickChars(w2) && !IsNickChar(c)
    ensures NickTokens(w1 + [c] + w2) == [w1, w2]
  {
    TokensSplit(w1, c, w2);
    WordIsToken(w1);
    WordIsToken(w2);
  }

  lemma LowerKeepsNickChar(c: char)
    ensures IsNickChar(LowerChar(c)) <==> IsNickChar(c)
  {
  }

  function LowerAll(ts: seq<string>): (r: seq<string>)
    ensures |r| == |ts| && forall n :: 0 <= n < |ts| ==> r[n] == Lower(ts[n])
  {
    seq(|ts|, n requires 0 <= n < |ts| => Lower(ts[n]))
  }

  /** Lowercasing the message lowercases each token and keeps the token boundaries. */
  lemma {:induction false} TokensOfLower(s: string)
    ensures NickTokens(Lower(s)) == LowerAll(NickTokens(s))
    decreases |s|
  {
    var l := Lower(s);
    var k := NickRunEnd(s, 0);
    assert NickRunEnd(l, 0) == k by { LowerRunEnd(s, 0); }
    HeadOfLower(s, k);
    if k == |s| {
      TokensWhole(l);
      TokensWhole(s);
    } else {
      TokensAtSeparator(l, k);
      TokensAtSeparator(s, k);
      assert l[k + 1..] == Lower(s[k + 1..]);
      TokensOfLower(s[k + 1..]);
      LowerAllAppend(Head(s, k), NickTokens(s[k + 1..]));
    }
  }

  /** The token before position `k` of a lowercased message is the lowercased token. */
  lemma HeadOfLower(s: string, k: nat)
    requires k <= |s|
    ensures Head(Lower(s), k) == LowerAll(Head(s, k))
  {
    assert Lower(s)[..k] == Lower(s[..k]);
  }

  lemma LowerAllAppend(a: seq<string>, b: seq<string>)
    ensures LowerAll(a + b) == LowerAll(a) + LowerAll(b)
  {
  }

  lemma {:induction false} LowerRunEnd(s: string, i: nat)
    requires i <= |s|
    ensures NickRunEnd(Lower(s), i) == NickRunEnd(s, i)
    decreases |s| - i
  {
    if i < |s| {
      LowerKeepsNickChar(s[i]);
      LowerRunEnd(s, i + 1);
    }
  }

  /** The tokens whose lowercase form is a channel user, in order. */
  function KnownTokens(users: set<string>, ts: seq<string>): (ms: seq<string>)
    ensures |ms| <= |ts|
  {
    if ts == [] then []
    else if Lower(ts[0]) in users then [ts[0]] + KnownTokens(users, ts[1..])
    else KnownTokens(users, ts[1..])
  }

  /**
   * The nicks of the channel's users mentioned in a message. `users` is the
   * channel's user set as onUserList builds it: each lowercased nick split
   * once at a run of non-alphanumerics, second part kept. That part is "" for
   * a nick such as "_", and then Java would leave null entries in the result
   * (sent as "null" mention prefixes); the model excludes that case.
   */
  function MentionsIn(users: set<string>, message: string): (ms: seq<string>)
    requires "" !in users
    ensures forall n :: 0 <= n < |ms| ==> ms[n] != [] && AllNickChars(ms[n]) && Lower(ms[n]) in users
  {
    TokensWellFormed(message);
    KnownMentionsWellFormed(users, NickTokens(message));
    KnownTokens(users, NickTokens(message))
  }

  lemma {:induction false} KnownMentionsWellFormed(users: set<string>, ts: seq<string>)
    requires forall n :: 0 <= n < |ts| ==> ts[n] != [] && AllNickChars(ts[n])
    ensures forall n :: 0 <= n < |KnownTokens(users, ts)| ==>
      KnownTokens(users, ts)[n] != [] && AllNickChars(KnownTokens(users, ts)[n]) && Lower(KnownTokens(users, ts)[n]) in users
  {
    if ts != [] {
      KnownMentionsWellFormed(users, ts[1..]);
      var ms := KnownTokens(users, ts);
      var rest := KnownTokens(users, ts[1..]);
      forall n | 0 <= n < |ms|
        ensures ms[n] != [] && AllNickChars(ms[n]) && Lower(ms[n]) in users
      {
        if Lower(ts[0]) in users && n > 0 {
          assert ms[n] == rest[n - 1];
        }
      }
    }
  }

  /** A token is mentioned exactly when it occurs in the message and its lowercase form is a user. */
  lemma {:induction false} KnownTokensMembership(users: set<string>, ts: seq<string>, t: string)
    ensures t in KnownTokens(users, ts) <==> t in ts && Lower(t) in users
  {
    if ts != [] {
      KnownTokensMembership(users, ts[1..], t);
      assert ts == [ts[0]] + ts[1..];
    }
  }

  /** The filter keeps the order of the tokens: filtering two lists is filtering each, concatenated. */
  lemma {:induction false} KnownTokensAppend(users: set<string>, a: seq<string>, b: seq<string>)
    ensures KnownTokens(users, a + b) == KnownTokens(users, a) + KnownTokens(users, b)
    decreases |a|
  {
    if a == [] {
      assert a + b == b;
    } else {
      assert (a + b)[0] == a[0] && (a + b)[1..] == a[1..] + b;
      KnownTokensAppend(users, a[1..], b);
    }
  }

  /**
   * The mentions keep message order: the mentions of a message split at a
   * non-nick character are those of the part before it, then those of the
   * part after it.
   */
  lemma MentionsSplit(users: set<string>, a: string, c: char, b: string)
    requires "" !in users && !IsNickChar(c)
    ensures MentionsIn(users, a + [c] + b) == MentionsIn(users, a) + MentionsIn(users, b)
  {
    TokensSplit(a, c, b);
    KnownTokensAppend(users, NickTokens(a), NickTokens(b));
  }

  /**
   * Duplicates: every known token occurs in the mentions as often
   * as in the message, and unknown tokens not at all.
   */
  lemma {:induction false} KnownTokensCount(users: set<string>, ts: seq<string>, t: string)
    ensures multiset(KnownTokens(users, ts))[t] == if Lower(t) in users then multiset(ts)[t] else 0
  {
    if ts != [] {
      KnownTokensCount(users, ts[1..], t);
      assert ts == [ts[0]] + ts[1..];
    }
  }

  /** A nick is among the mentions exactly when it is a token of the message whose lowercase form is a channel user. */
  lemma MentionsMembership(users: set<string>, message: string, t: string)
    requires "" !in users
    ensures t in MentionsIn(users, message) <==> t in NickTokens(message) && Lower(t) in users
  {
    KnownTokensMembership(users, NickTokens(message), t);
  }

  /** Each mentioned nick appears as many times as the message writes it: duplicates are kept. */
  lemma MentionsCount(users: set<string>, message: string, t: string)
    requires "" !in users
    ensures multiset(MentionsIn(users, message))[t] == if Lower(t) in users then multiset(NickTokens(message))[t] else 0
  {
    KnownTokensCount(users, NickTokens(message), t);
  }

  /**
   * A nick written twice, in any case, is mentioned twice and as written, as
   * long as its lowercase form is a channel user.
   */
  lemma MentionsOfRepeatedWord(users: set<string>, w1: string, c: char, w2: string)
    requires "" !in users
    requires w1 != [] && AllNickChars(w1) && w2 != [] && AllNickChars(w2) && !IsNickChar(c)
    requires Lower(w1) == Lower(w2)
    ensures MentionsIn(users, w1 + [c] + w2) == if Lower(w1) in users then [w1, w2] else []
  {
    TokensOfWords(w1, c, w2);
    var ts := [w1, w2];
    assert ts[1..] == [w2] && ts[1..][1..] == [];
    assert KnownTokens(users, [w2]) == if Lower(w2) in users then [w2] else [];
    assert KnownTokens(users, ts) == if Lower(w1) in users then [w1] + KnownTokens(users, [w2]) else KnownTokens(users, [w2]);
  }

  /**
   * The bot counts as mentioned (onMessage) when its lowercase nick is among
   * the mentions of the lowercased message.
   */
  function BotMentioned(users: set<string>, message: string, nick: string): (b: bool)
    requires "" !in users
    ensures b ==> Lower(nick) in users
  {
    LowerIdempotent(nick);
    Lower(nick) in MentionsIn(users, Lower(message))
  }

  /** The bot is mentioned exactly when one of the message's tokens is its nick, in any case, and it is a user. */
  lemma BotMentionedMeans(users: set<string>, message: string, nick: string)
    requires "" !in users
    ensures BotMentioned(users, message, nick)
      <==> Lower(nick) in users && exists n :: 0 <= n < |NickTokens(message)| && Lower(NickTokens(message)[n]) == Lower(nick)
  {
    var ts := NickTokens(message);
    TokensOfLower(message);
    MentionsMembership(users, Lower(message), Lower(nick));
    assert NickTokens(Lower(message)) == LowerAll(ts);
    LowerAllMembership(ts, Lower(nick));
    LowerIdempotent(nick);
  }

  lemma LowerAllMembership(ts: seq<string>, t: string)
    ensures t in LowerAll(ts) <==> exists n :: 0 <= n < |ts| && Lower(ts[n]) == t
  {
    if t in LowerAll(ts) {
      var n :| 0 <= n < |ts| && LowerAll(ts)[n] == t;
    }
    if exists n :: 0 <= n < |ts| && Lower(ts[n]) == t {
      var n :| 0 <= n < |ts| && Lower(ts[n]) == t;
      assert LowerAll(ts)[n] == t;
    }
  }
}

=== FILE: normalizedkeymap.dfy ===
/**
 * NormalizedKeyMap: a map that passes every key through a normalising
 * function before storing, looking up or removing it. The backing map only
 * ever holds normalised keys. A Java null result is None here.
 */
module NormalizedKeys {
  import opened Wrappers

  datatype NormalizedKeyMap<!K(==), V> = NormalizedKeyMap(backing: map<K, V>, norm: K -> K)

  /** What a put or remove returns: the map afterwards and the value that was under the key before. */
  datatype Update<!K(==), V> = Update(after: NormalizedKeyMap<K, V>, previous: Option<V>)

  /** Every key of the backing map is an output of the normaliser. */
  ghost predicate Valid<K(!new), V>(m: NormalizedKeyMap<K, V>)
  {
    forall k :: k in m.backing ==> exists j :: m.norm(j) == k
  }

  /** The one-argument constructor: no entries. */
  function Empty<K(==,!new), V>(norm: K -> K): (m: NormalizedKeyMap<K, V>)
    ensures m.backing == map[] && m.norm == norm
    ensures Valid(m)
  {
    NormalizedKeyMap(map[], norm)
  }

  /** get: the value under the normalised key. */
  function Get<K(==,!new), V>(m: NormalizedKeyMap<K, V>, key: K): (r: Option<V>)
    ensures r.Some? <==> m.norm(key) in m.backing
    ensures r.Some? ==> r.value == m.backing[m.norm(key)]
  {
    if m.norm(key) in m.backing then Some(m.backing[m.norm(key)]) else None
  }

  /** containsKey: whether the normalised key is present. */
  function ContainsKey<K(==,!new), V>(m: NormalizedKeyMap<K, V>, key: K): (r: bool)
    ensures r <==> Get(m, key).Some?
  {
    m.norm(key) in m.backing
  }

  /** put: store under the normalised key and return what was there. */
  function Put<K(==,!new), V>(m: NormalizedKeyMap<K, V>, key: K, value: V): (r: Update<K, V>)
    requires Valid(m)
    ensures Valid(r.after) && r.after.norm == m.norm
    ensures r.previous == Get(m, key)
    ensures r.after.backing.Keys == m.backing.Keys + {m.norm(key)}
  {
    var r := Update(NormalizedKeyMap(m.backing[m.norm(key) := value], m.norm), Get(m, key));
    assert forall k :: k in r.after.backing ==> k == m.norm(key) || k in m.backing;
    r
  }

  /** remove: delete the entry under the normalised key and return its value. */
  function Remove<K(==,!new), V>(m: NormalizedKeyMap<K, V>, key: K): (r: Update<K, V>)
    requires Valid(m)
    ensures Valid(r.after) && r.after.norm == m.norm
    ensures r.previous == Get(m, key)
    ensures r.after.backing.Keys == m.backing.Keys - {m.norm(key)}
  {
    Update(NormalizedKeyMap(m.backing - {m.norm(key)}, m.norm), Get(m, key))
  }

  /** entrySet: the stored entries, keyed by normalised keys. */
  function Entries<K(==,!new), V(==,!new)>(m: NormalizedKeyMap<K, V>): (es: set<(K, V)>)
    ensures forall e :: e in es <==> e.0 in m.backing && m.backing[e.0] == e.1
  {
    set k | k in m.backing :: (k, m.backing[k])
  }

  /** Every key entrySet exposes is an output of the normaliser. */
  lemma EntryKeysNormalized<K(!new), V(!new)>(m: NormalizedKeyMap<K, V>, e: (K, V))
    requires Valid(m) && e in Entries(m)
    ensures exists j :: m.norm(j) == e.0
  {
  }

  /** After a put, every key that normalises like the stored one reads the stored value. */
  lemma PutThenGet<K(!new), V>(m: NormalizedKeyMap<K, V>, k1: K, v: V, k2: K)
    requires Valid(m) && m.norm(k1) == m.norm(k2)
    ensures Get(Put(m, k1, v).after, k2) == Some(v)
  {
  }

  /** A put leaves the keys that normalise differently alone. */
  lemma PutKeepsOthers<K(!new), V>(m: NormalizedKeyMap<K, V>, k1: K, v: V, k2: K)
    requires Valid(m) && m.norm(k1) != m.norm(k2)
    ensures Get(Put(m, k1, v).after, k2) == Get(m, k2)
  {
  }

  /** After a remove, no key that normalises like the removed one is found; other keys read as before. */
  lemma RemoveThenGet<K(!new), V>(m: NormalizedKeyMap<K, V>, k1: K, k2: K)
    requires Valid(m)
    ensures Get(Remove(m, k1).after, k2) == if m.norm(k1) == m.norm(k2) then None else Get(m, k2)
  {
  }

  /** Removing a key that was just put under a fresh normalised key gives back the original entries. */
  lemma RemoveUndoesPut<K(!new), V>(m: NormalizedKeyMap<K, V>, k: K, v: V)
    requires Valid(m) && !ContainsKey(m, k)
    ensures Remove(Put(m, k, v).after, k).after.backing == m.backing
    ensures Remove(Put(m, k, v).after, k).previous == Some(v)
  {
  }

  /** Putting the entries one after the other (AbstractMap.putAll in iteration order). */
  function PutAll<K(==,!new), V>(m: NormalizedKeyMap<K, V>, entries: seq<(K, V)>): (r: NormalizedKeyMap<K, V>)
    requires Valid(m)
    ensures Valid(r) && r.norm == m.norm
    decreases |entries|
  {
    if entries == [] then m else PutAll(Put(m, entries[0].0, entries[0].1).after, entries[1..])
  }

  /** The copy constructor: the entries of another map, each key normalised. */
  function CopyOf<K(==,!new), V>(entries: seq<(K, V)>, norm: K -> K): (m: NormalizedKeyMap<K, V>)
    ensures Valid(m) && m.norm == norm
  {
    PutAll(Empty(norm), entries)
  }

  /** The keys after putting entries are the old keys plus the normalised keys of the entries. */
  lemma {:induction false} PutAllKeys<K(!new), V>(m: NormalizedKeyMap<K, V>, entries: seq<(K, V)>)
    requires Valid(m)
    ensures PutAll(m, entries).backing.Keys == m.backing.Keys + set n | 0 <= n < |entries| :: m.norm(entries[n].0)
    decreases |entries|
  {
    if entries != [] {
      var next := Put(m, entries[0].0, entries[0].1).after;
      PutAllKeys(next, entries[1..]);
      var rest := set n | 0 <= n < |entries[1..]| :: m.norm(entries[1..][n].0);
      var all := set n | 0 <= n < |entries| :: m.norm(entries[n].0);
      assert all == {m.norm(entries[0].0)} + rest by {
        forall x | x in all
          ensures x in {m.norm(entries[0].0)} + rest
        {
          var n :| 0 <= n < |entries| && x == m.norm(entries[n].0);
          if n > 0 {
            assert x == m.norm(entries[1..][n - 1].0);
          }
        }
        forall x | x in rest
          ensures x in all
        {
          var n :| 0 <= n < |entries[1..]| && x == m.norm(entries[1..][n].0);
          assert x == m.norm(entries[n + 1].0);
        }
      }
    }
  }

  /** The copy constructor's keys are exactly the normaliser's images of the source keys. */
  lemma CopyOfKeys<K(!new), V>(entries: seq<(K, V)>, norm: K -> K)
    ensures CopyOf(entries, norm).backing.Keys == set n | 0 <= n < |entries| :: norm(entries[n].0)
  {
    PutAllKeys(Empty<K, V>(norm), entries);
  }

  /**
   * In a copy, a key reads the value of the last source entry whose key
   * normalises the same way: keys that collide after normalisation keep the
   * value put last.
   */
  lemma {:induction false} PutAllLastWins<K(!new), V>(m: NormalizedKeyMap<K, V>, entries: seq<(K, V)>, n: nat, key: K)
    requires Valid(m)
    requires n < |entries| && m.norm(entries[n].0) == m.norm(key)
    requires forall j :: n < j < |entries| ==> m.norm(entries[j].0) != m.norm(key)
    ensures Get(PutAll(m, entries), key) == Some(entries[n].1)
    decreases |entries|
  {
    var next := Put(m, entries[0].0, entries[0].1).after;
    if n == 0 {
      PutAllKeepsOthers(next, entries[1..], key);
    } else {
      forall j | n - 1 < j < |entries[1..]|
        ensures m.norm(entries[1..][j].0) != m.norm(key)
      {
        assert entries[1..][j] == entries[j + 1];
      }
      PutAllLastWins(next, entries[1..], n - 1, key);
    }
  }

  /** Entries under other normalised keys do not change what a key reads. */
  lemma {:induction false} PutAllKeepsOthers<K(!new), V>(m: NormalizedKeyMap<K, V>, entries: seq<(K, V)>, key: K)
    requires Valid(m)
    requires forall j :: 0 <= j < |entries| ==> m.norm(entries[j].0) != m.norm(key)
    ensures Get(PutAll(m, entries), key) == Get(m, key)
    decreases |entries|
  {
    if entries != [] {
      var next := Put(m, entries[0].0, entries[0].1).after;
      PutAllKeepsOthers(next, entries[1..], key);
    }
  }
}

=== FILE: responders.dfy ===
/**
 * The responders a command can be bound to: a FixedResponder, which always
 * answers with the same text, and the CoreCommandResponder, which parses a
 * subcommand and guards the sensitive ones with a one-shot authentication
 * token. Side effects on the IRC connection (joining, parting, quitting) are
 * returned as data instead of being performed.
 */
module Responders {
  import opened Wrappers
  import opened Text

  const AboutString: string :=
    "This bot is running PCommandBot, version 1.0. More information is at <http://github.com/jack126guy/pcommandbot>."
  const NotSpecified: string := "Core subcommand not specified"
  const NotRecognized: string := "Core subcommand not recognized"
  const PublicAuthRefusal: string := "Please do not authenticate publicly."
  const Authenticated: string :=
    "Authenticated. Please keep in mind that authentication applies for only one core command and is void if you change nicks."
  const InvalidPassword: string := "Invalid password"
  const NotAuthenticated: string := "Not authenticated"
  const JoinPrompt: string := "Please specify the channel to join"
  const PartPrompt: string := "Please specify the channel to part"
  const QuitReason: string := "Operator terminated the bot"
  const PartReason: string := "Operator commanded"

  /** What a core subcommand asks the bot to do on the connection. Quitting also ends the process. */
  datatype Effect =
    | JoinChannel(channel: string)
    | PartChannel(channel: string, reason: string)
    | QuitServer(reason: string)

  /**
   * The state of a CoreCommandResponder: the supertrimmed admin password and
   * the lowercase nick of the last user who authenticated, "" when there is
   * none.
   */
  datatype CoreState = CoreState(password: string, token: string)

  /** The text a responder answers with, the effect it requests, and the core state afterwards. */
  datatype Reply = Reply(text: string, effect: Option<Effect>, core: CoreState)

  /** A responder a command is bound to. All Core entries of a bot share its one CoreState. */
  datatype Responder = Fixed(message: string) | Core

  /** The outcome of an authentication check, with the state it leaves behind. */
  datatype Check = Check(ok: bool, core: CoreState)

  /** The CoreCommandResponder constructor: the password is supertrimmed and nobody is authenticated. */
  function NewCore(pass: string): (st: CoreState)
    ensures st.token == ""
    ensures st.password == [] || !IsWhitespace(st.password[0])
  {
    CoreState(Supertrim(pass), "")
  }

  /**
   * authenticate: a password equal to the stored one makes `user`
   * (lowercased) the authenticated user, replacing whoever was; a wrong
   * password changes nothing.
   */
  function Authenticate(st: CoreState, user: string, pass: string): (r: Check)
    ensures r.ok <==> pass == st.password
    ensures r.core.password == st.password
    ensures r.ok ==> r.core.token == Lower(user)
    ensures !r.ok ==> r.core == st
  {
    if st.password == pass then Check(true, st.(token := Lower(user))) else Check(false, st)
  }

  /**
   * isAuthenticated: succeeds when `user`, lowercased, is the authenticated
   * user, and then voids the authentication; a failure changes nothing.
   */
  function IsAuthenticated(st: CoreState, user: string): (r: Check)
    ensures r.ok <==> st.token == Lower(user)
    ensures r.ok ==> r.core == st.(token := "")
    ensures !r.ok ==> r.core == st
  {
    if st.token == Lower(user) then Check(true, st.(token := "")) else Check(false, st)
  }

  /** An authentication is good for one check only (for any nick but the empty one). */
  lemma OneShot(st: CoreState, user: string)
    requires user != []
    requires IsAuthenticated(st, user).ok
    ensures !IsAuthenticated(IsAuthenticated(st, user).core, user).ok
  {
    assert |Lower(user)| > 0;
  }

  /**
   * The "nobody" token is the empty string, so a check for the empty nick
   * succeeds while nobody is authenticated.
   */
  lemma EmptyTokenQuirk(pass: string)
    ensures IsAuthenticated(NewCore(pass), "").ok
    ensures IsAuthenticated(NewCore(pass), "").core == NewCore(pass)
  {
  }

  /** While no authentication is pending, a check for the empty user name passes and changes nothing. */
  lemma EmptyUserPassesWithoutToken(st: CoreState)
    requires st.token == ""
    ensures IsAuthenticated(st, "").ok && IsAuthenticated(st, "").core == st
  {
  }

  /**
   * Alice authenticates, Bob fails to, then Alice's check succeeds exactly
   * once: a failed attempt does not displace the authenticated user.
   */
  lemma AuthenticationScenario(st: CoreState, alice: string, bob: string, wrong: string)
    requires alice != [] && wrong != st.password
    ensures var a := Authenticate(st, alice, st.password);
      var b := Authenticate(a.core, bob, wrong);
      var c := IsAuthenticated(b.core, alice);
      a.ok && !b.ok && c.ok && !IsAuthenticated(c.core, alice).ok
  {
    var a := Authenticate(st, alice, st.password);
    OneShot(a.core, alice);
  }

  /** The first position at or after `i` holding a whitespace character, or the end. */
  function FirstWhitespace(s: string, i: nat): (a: nat)
    requires i <= |s|
    ensures i <= a <= |s|
    ensures forall x :: i <= x < a ==> !IsWhitespace(s[x])
    ensures a == |s| || IsWhitespace(s[a])
    decreases |s| - i
  {
    if i == |s| || IsWhitespace(s[i]) then i else FirstWhitespace(s, i + 1)
  }

  /**
   * WHITESPACE.split(argument, 2): the text before the first whitespace run
   * and the text after it, or the whole argument when it has no whitespace.
   */
  function SplitSubcommand(argument: string): (parts: seq<string>)
    ensures 1 <= |parts| <= 2
    ensures forall x :: 0 <= x < |parts[0]| ==> !IsWhitespace(parts[0][x])
    ensures |parts| == 1 ==> parts[0] == argument
    ensures |parts| == 2 ==> exists ws ::
      ws != [] && AllWhitespace(ws) && argument == parts[0] + ws + parts[1]
    ensures |parts| == 2 ==> parts[1] == [] || !IsWhitespace(parts[1][0])
  {
    var a := FirstWhitespace(argument, 0);
    if a == |argument| then
      assert argument[..a] == argument;
      [argument]
    else
      var b := WhitespaceRunEnd(argument, a);
      assert argument == argument[..a] + argument[a..b] + argument[b..];
      [argument[..a], argument[b..]]
  }

  /** Splitting a word, a whitespace run and a rest that does not start with whitespace gives the word and the rest. */
  lemma SplitOfWords(w: string, ws: string, rest: string)
    requires forall x :: 0 <= x < |w| ==> !IsWhitespace(w[x])
    requires ws != [] && AllWhitespace(ws)
    requires rest == [] || !IsWhitespace(rest[0])
    ensures SplitSubcommand(w + ws + rest) == [w, rest]
  {
    var s := w + ws + rest;
    assert FirstWhitespace(s, 0) == |w| by {
      FirstWhitespaceAt(s, 0, |w|);
    }
    assert WhitespaceRunEnd(s, |w|) == |w| + |ws| by {
      WhitespaceRunEndAt(s, |w|, |w| + |ws|);
    }
    assert s[..|w|] == w;
    assert s[|w| + |ws|..] == rest;
  }

  /** A word with no whitespace is its own subcommand. */
  lemma SplitOfWord(w: string)
    requires forall x :: 0 <= x < |w| ==> !IsWhitespace(w[x])
    ensures SplitSubcommand(w) == [w]
  {
    FirstWhitespaceAt(w, 0, |w|);
  }

  lemma {:induction false} FirstWhitespaceAt(s: string, i: nat, a: nat)
    requires i <= a <= |s|
    requires forall x :: i <= x < a ==> !IsWhitespace(s[x])
    requires a == |s| || IsWhitespace(s[a])
    ensures FirstWhitespace(s, i) == a
    decreases a - i
  {
    if i < a {
      FirstWhitespaceAt(s, i + 1, a);
    }
  }

  lemma {:induction false} WhitespaceRunEndAt(s: string, i: nat, k: nat)
    requires i <= k <= |s|
    requires forall x :: i <= x < k ==> IsWhitespace(s[x])
    requires k == |s| || !IsWhitespace(s[k])
    ensures WhitespaceRunEnd(s, i) == k
    decreases k - i
  {
    if i < k {
      WhitespaceRunEndAt(s, i + 1, k);
    }
  }

  /** The subcommand: the first word of the argument, lowercased. */
  function Subcommand(argument: string): (sub: string)
    ensures Lower(sub) == sub
    ensures forall x :: 0 <= x < |sub| ==> !IsWhitespace(sub[x])
  {
    var first := SplitSubcommand(argument)[0];
    LowerIdempotent(first);
    forall x | 0 <= x < |first|
      ensures !IsWhitespace(Lower(first)[x])
    {
      LowerKeepsWhitespace(first[x]);
    }
    Lower(first)
  }

  /** The subargument: what follows the first whitespace run, or "". */
  function Subargument(argument: string): (arg: string)
    ensures |arg| <= |argument| && arg == argument[|argument| - |arg|..]
    ensures arg == [] || !IsWhitespace(arg[0])
  {
    var parts := SplitSubcommand(argument);
    if |parts| > 1 then
      var ws :| ws != [] && AllWhitespace(ws) && argument == parts[0] + ws + parts[1];
      assert argument[|argument| - |parts[1]|..] == parts[1];
      parts[1]
    else ""
  }

  /** A word, a whitespace run and a rest: the subcommand is the lowercased word and the subargument the rest. */
  lemma SubcommandOfWords(w: string, ws: string, rest: string)
    requires forall x :: 0 <= x < |w| ==> !IsWhitespace(w[x])
    requires ws != [] && AllWhitespace(ws)
    requires rest == [] || !IsWhitespace(rest[0])
    ensures Subcommand(w + ws + rest) == Lower(w) && Subargument(w + ws + rest) == rest
  {
    SplitOfWords(w, ws, rest);
  }

  /** A single word: the subcommand is the lowercased word and there is no subargument. */
  lemma SubcommandOfWord(w: string)
    requires forall x :: 0 <= x < |w| ==> !IsWhitespace(w[x])
    ensures Subcommand(w) == Lower(w) && Subargument(w) == ""
  {
    SplitOfWord(w);
  }

  /**
   * CoreCommandResponder.respond. `channel` is None for a private message.
   * `now` stands for the formatted UTC clock reading the `time` subcommand
   * reports. After a successful `quit` the process exits, so the text
   * returned with the QuitServer effect is never sent.
   */
  function CoreRespond(st: CoreState, channel: Option<string>, user: string, argument: string, now: string): (r: Reply)
    ensures r.core.password == st.password
    // sensitive effects happen only on a consumed, matching authentication
    ensures r.effect.Some? ==> st.token == Lower(user) && r.core.token == ""
    // the token changes only when authentication is consumed, or set by a private auth
    ensures || r.core == st
            || (r.core.token == "" && st.token == Lower(user) && r.effect.Some?)
            || (r.core.token == Lower(user) && channel.None? && Subcommand(argument) == "auth")
  {
    var sub := Subcommand(argument);
    var subarg := Subargument(argument);
    if sub == "" then Reply(NotSpecified, None, st)
    else if sub == "about" then Reply(AboutString, None, st)
    else if sub == "auth" then
      if channel.Some? then Reply(PublicAuthRefusal, None, st)
      else
        var a := Authenticate(st, user, subarg);
        Reply(if a.ok then Authenticated else InvalidPassword, None, a.core)
    else if sub == "quit" then
      var c := IsAuthenticated(st, user);
      if c.ok then Reply("", Some(QuitServer(QuitReason)), c.core)
      else Reply(NotAuthenticated, None, c.core)
    else if sub == "join" then
      if subarg == "" then Reply(JoinPrompt, None, st)
      else
        var c := IsAuthenticated(st, user);
        if c.ok then Reply("Joined " + subarg, Some(JoinChannel(subarg)), c.core)
        else Reply(NotAuthenticated, None, c.core)
    else if sub == "part" then
      if subarg == "" then Reply(PartPrompt, None, st)
      else
        var c := IsAuthenticated(st, user);
        if c.ok then
          var same := channel.Some? && Lower(channel.value) == Lower(subarg);
          Reply(if same then "" else "Parted " + subarg, Some(PartChannel(subarg, PartReason)), c.core)
        else Reply(NotAuthenticated, None, c.core)
    else if sub == "time" then Reply(now, None, st)
    else if sub == "echo" then Reply(subarg, None, st)
    else Reply(NotRecognized, None, st)
  }

  /** A subcommand among those the core command understands. */
  predicate Known(sub: string)
  {
    sub in {"about", "auth", "quit", "join", "part", "time", "echo"}
  }

  /**
   * Answers that never touch the state: an empty subcommand, an unknown one,
   * and the informational subcommands.
   */
  lemma StatelessAnswers(st: CoreState, channel: Option<string>, user: string, argument: string, now: string)
    ensures var r := CoreRespond(st, channel, user, argument, now);
      var sub := Subcommand(argument);
      && (sub == "" ==> r == Reply(NotSpecified, None, st))
      && (sub != "" && !Known(sub) ==> r == Reply(NotRecognized, None, st))
      && (sub == "about" ==> r == Reply(AboutString, None, st))
      && (sub == "echo" ==> r == Reply(Subargument(argument), None, st))
      && (sub == "time" ==> r == Reply(now, None, st))
  {
  }

  /** `auth` sent to a channel is refused and leaves the authenticated user as it was. */
  lemma PublicAuthRefused(st: CoreState, channel: string, user: string, argument: string, now: string)
    requires Subcommand(argument) == "auth"
    ensures CoreRespond(st, Some(channel), user, argument, now) == Reply(PublicAuthRefusal, None, st)
  {
  }

  /** `auth` sent privately: success exactly when the subargument is the password. */
  lemma PrivateAuth(st: CoreState, user: string, argument: string, now: string)
    requires Subcommand(argument) == "auth"
    ensures var r := CoreRespond(st, None, user, argument, now);
      && r.effect.None?
      && (Subargument(argument) == st.password ==> r.text == Authenticated && r.core == st.(token := Lower(user)))
      && (Subargument(argument) != st.password ==> r.text == InvalidPassword && r.core == st)
  {
  }

  /**
   * `join` and `part` without a channel prompt for one before authentication
   * is checked, so a pending authentication survives.
   */
  lemma PromptKeepsToken(st: CoreState, channel: Option<string>, user: string, argument: string, now: string)
    requires Subcommand(argument) in {"join", "part"} && Subargument(argument) == ""
    ensures var r := CoreRespond(st, channel, user, argument, now);
      r.core == st && r.effect.None? && r.text in {JoinPrompt, PartPrompt}
  {
  }

  /** The sensitive subcommands without a matching authentication: refused, nothing changes. */
  lemma GuardedWithoutToken(st: CoreState, channel: Option<string>, user: string, argument: string, now: string)
    requires Subcommand(argument) == "quit" || (Subcommand(argument) in {"join", "part"} && Subargument(argument) != "")
    requires st.token != Lower(user)
    ensures CoreRespond(st, channel, user, argument, now) == Reply(NotAuthenticated, None, st)
  {
  }

  /** The sensitive subcommands with a matching authentication: they consume it and request their effect. */
  lemma GuardedWithToken(st: CoreState, channel: Option<string>, user: string, argument: string, now: string)
    requires Subcommand(argument) == "quit" || (Subcommand(argument) in {"join", "part"} && Subargument(argument) != "")
    requires st.token == Lower(user)
    ensures var r := CoreRespond(st, channel, user, argument, now);
      var x := Subargument(argument);
      && r.core == st.(token := "")
      && (Subcommand(argument) == "quit" ==> r.effect == Some(QuitServer(QuitReason)))
      && (Subcommand(argument) == "join" ==> r.effect == Some(JoinChannel(x)) && r.text == "Joined " + x)
      && (Subcommand(argument) == "part" ==> r.effect == Some(PartChannel(x, PartReason)))
      && (Subcommand(argument) == "part" && channel.Some? && Lower(channel.value) == Lower(x) ==> r.text == "")
      && (Subcommand(argument) == "part" && !(channel.Some? && Lower(channel.value) == Lower(x)) ==> r.text == "Parted " + x)
  {
  }

  /**
   * A private "auth <password>" followed by "join <channel>" from the same
   * nick joins the channel, and repeating the join is refused.
   */
  lemma AuthThenJoinOnce(pass: string, user: string, sp: string, chan: string, now: string)
    requires user != []
    requires sp != [] && AllWhitespace(sp)
    requires chan != [] && !IsWhitespace(chan[0])
    ensures var st0 := NewCore(pass);
      var r1 := CoreRespond(st0, None, user, "auth" + sp + st0.password, now);
      var r2 := CoreRespond(r1.core, None, user, "join" + sp + chan, now);
      var r3 := CoreRespond(r2.core, None, user, "join" + sp + chan, now);
      && r1.text == Authenticated
      && r2.text == "Joined " + chan && r2.effect == Some(JoinChannel(chan))
      && r3.text == NotAuthenticated && r3.effect.None?
  {
    var st0 := NewCore(pass);
    SplitOfWords("auth", sp, st0.password);
    SplitOfWords("join", sp, chan);
    assert Lower("auth") == "auth" && Lower("join") == "join";
    var r1 := CoreRespond(st0, None, user, "auth" + sp + st0.password, now);
    assert r1.core.token == Lower(user);
    assert |Lower(user)| > 0;
  }

  /**
   * Responder.respond for either kind of responder. A fixed responder answers
   * with its message whatever the channel, user, mentions or argument.
   */
  function RespondTo(resp: Responder, st: CoreState, channel: Option<string>, user: string, mentions: seq<string>, argument: string, now: string): (r: Reply)
    ensures resp.Fixed? ==> r == Reply(resp.message, None, st)
    ensures resp.Core? ==> r == CoreRespond(st, channel, user, argument, now)
  {
    match resp
    case Fixed(message) => Reply(message, None, st)
    case Core => CoreRespond(st, channel, user, argument, now)
  }

  /** Two calls of the same fixed responder agree, whatever differs between them. */
  lemma FixedIgnoresContext(m: string, st: CoreState,
                            c1: Option<string>, u1: string, ms1: seq<string>, a1: string, n1: string,
                            c2: Option<string>, u2: string, ms2: seq<string>, a2: string, n2: string)
    ensures RespondTo(Fixed(m), st, c1, u1, ms1, a1, n1) == RespondTo(Fixed(m), st, c2, u2, ms2, a2, n2)
    ensures RespondTo(Fixed(m), st, c1, u1, ms1, a1, n1).text == m
  {
  }
}

=== FILE: text.dfy ===
/**
 * Character classes and string utilities of Utilities.java: the WHITESPACE
 * class, supertrim and the mention prefix, plus the English-locale lowercase
 * used for every case-insensitive comparison of the bot.
 */
module Text {

  /**
   * Character.isSpaceChar: the Unicode space separators (Zs), the line
   * separator and the paragraph separator, as of Unicode 6.3 (Java 9 and
   * later; Java 7 and 8 also count U+180E).
   */
  predicate IsSpaceChar(c: char)
  {
    || c == ' '
    || c == '\U{00A0}'
    || c == '\U{1680}'
    || ('\U{2000}' <= c <= '\U{200A}')
    || c == '\U{2028}'
    || c == '\U{2029}'
    || c == '\U{202F}'
    || c == '\U{205F}'
    || c == '\U{3000}'
  }

  /** Character.isISOControl: U+0000..U+001F and U+007F..U+009F. */
  predicate IsIsoControl(c: char)
  {
    c <= '\U{001F}' || ('\U{007F}' <= c <= '\U{009F}')
  }

  /** One character of the WHITESPACE class `[\p{javaSpaceChar}\p{javaISOControl}]`. */
  predicate IsWhitespace(c: char)
  {
    IsSpaceChar(c) || IsIsoControl(c)
  }

  predicate AllWhitespace(s: string)
  {
    forall i :: 0 <= i < |s| ==> IsWhitespace(s[i])
  }

  /** The end of the maximal run of whitespace that starts at `i` (a greedy `[...]*`). */
  function WhitespaceRunEnd(s: string, i: nat): (k: nat)
    requires i <= |s|
    ensures i <= k <= |s|
    ensures forall x :: i <= x < k ==> IsWhitespace(s[x])
    ensures k == |s| || !IsWhitespace(s[k])
    decreases |s| - i
  {
    if i == |s| || !IsWhitespace(s[i]) then i else WhitespaceRunEnd(s, i + 1)
  }

  /**
   * Utilities.supertrim. The pattern `^[WS]*(.*)[WS]*$` lets the greedy `(.*)`
   * swallow every trailing character, so only the leading whitespace goes.
   */
  function Supertrim(s: string): (r: string)
    ensures |r| <= |s| && r == s[|s| - |r|..]
    ensures r == [] || !IsWhitespace(r[0])
    ensures AllWhitespace(s[..|s| - |r|])
  {
    s[WhitespaceRunEnd(s, 0)..]
  }

  lemma SupertrimIdempotent(s: string)
    ensures Supertrim(Supertrim(s)) == Supertrim(s)
  {
    var r := Supertrim(s);
    assert WhitespaceRunEnd(r, 0) == 0;
  }

  /** A string of whitespace only, the empty string included, supertrims to the empty string. */
  lemma SupertrimAllWhitespace(s: string)
    requires AllWhitespace(s)
    ensures Supertrim(s) == []
  {
  }

  /**
   * A string that starts with a non-whitespace character is returned unchanged,
   * trailing whitespace included.
   */
  lemma SupertrimKeepsTrailing(s: string)
    requires s != [] && !IsWhitespace(s[0])
    ensures Supertrim(s) == s
  {
  }

  /** A concrete instance: the trailing blank of "a " survives. */
  lemma SupertrimTrailingBlankSurvives()
    ensures Supertrim("a ") == "a "
    ensures Supertrim(" \t a ") == "a "
  {
    SupertrimKeepsTrailing("a ");
    var s := " \t a ";
    assert WhitespaceRunEnd(s, 3) == 3;
    assert WhitespaceRunEnd(s, 0) == 3;
  }

  /** toLowerCase(Locale.ENGLISH) restricted to ASCII letters. */
  function LowerChar(c: char): char
  {
    if 'A' <= c <= 'Z' then (c as int + 32) as char else c
  }

  function Lower(s: string): (r: string)
    ensures |r| == |s|
    ensures forall i :: 0 <= i < |s| ==> r[i] == LowerChar(s[i])
  {
    seq(|s|, i requires 0 <= i < |s| => LowerChar(s[i]))
  }

  lemma LowerIdempotent(s: string)
    ensures Lower(Lower(s)) == Lower(s)
  {
  }

  /** Lowercasing never turns a whitespace character into a non-whitespace one or back. */
  lemma LowerKeepsWhitespace(c: char)
    ensures IsWhitespace(LowerChar(c)) <==> IsWhitespace(c)
  {
  }

  lemma LowerAppend(a: string, b: string)
    ensures Lower(a + b) == Lower(a) + Lower(b)
  {
  }

  /** The mentions joined by ", " the way the loop of toMentionPrefix builds them: left to right. */
  function JoinComma(ms: seq<string>): string
    requires |ms| > 0
    decreases |ms|
  {
    if |ms| == 1 then ms[0] else JoinComma(ms[..|ms| - 1]) + ", " + ms[|ms| - 1]
  }

  /** Every mention after the first, each preceded by ", " (an independent, right-to-left reading). */
  function Separated(ms: seq<string>): string
    decreases |ms|
  {
    if ms == [] then "" else ", " + ms[0] + Separated(ms[1..])
  }

  /** Utilities.toMentionPrefix. */
  function MentionPrefix(ms: seq<string>): (r: string)
    ensures ms == [] ==> r == ""
    ensures ms != [] ==> |r| >= 2 && r[|r| - 2..] == ": "
  {
    if ms == [] then "" else JoinComma(ms) + ": "
  }

  lemma {:induction false} SeparatedSnoc(ms: seq<string>, m: string)
    ensures Separated(ms + [m]) == Separated(ms) + ", " + m
    decreases |ms|
  {
    if ms == [] {
      assert Separated([m]) == ", " + m + Separated([]);
    } else {
      assert (ms + [m])[1..] == ms[1..] + [m];
      SeparatedSnoc(ms[1..], m);
    }
  }

  /** The left fold of the loop equals the first mention followed by ", m" for every later mention. */
  lemma {:induction false} JoinCommaSpelled(ms: seq<string>)
    requires |ms| > 0
    ensures JoinComma(ms) == ms[0] + Separated(ms[1..])
    decreases |ms|
  {
    if |ms| == 1 {
      assert ms[1..] == [];
    } else {
      var init := ms[..|ms| - 1];
      JoinCommaSpelled(init);
      assert init[0] == ms[0];
      assert ms[1..] == init[1..] + [ms[|ms| - 1]];
      SeparatedSnoc(init[1..], ms[|ms| - 1]);
    }
  }

  /** A non-empty list of mentions gives the mentions joined by ", " and then ": ". */
  lemma MentionPrefixSpelled(ms: seq<string>)
    requires ms != []
    ensures MentionPrefix(ms) == ms[0] + Separated(ms[1..]) + ": "
  {
    JoinCommaSpelled(ms);
  }

  lemma MentionPrefixExample()
    ensures MentionPrefix(["a", "b", "c"]) == "a, b, c: "
    ensures MentionPrefix(["a", "b", "c"]) + "hi" == "a, b, c: hi"
  {
    var ms := ["a", "b", "c"];
    assert ms[..2] == ["a", "b"];
    assert ms[..2][..1] == ["a"];
    assert JoinComma(["a"]) == "a";
    assert JoinComma(["a", "b"]) == "a, b";
    assert JoinComma(ms) == "a, b, c";
  }
}

=== FILE: wrappers.dfy ===
/** Option and Result values used in place of Java's null and exceptions. */
module Wrappers {

  /** An optional value: a Java reference that may be null. */
  datatype Option<+T> = None | Some(value: T)

  /** The outcome of an operation that can fail with an error instead of throwing. */
  datatype Result<+R, +E> = Success(value: R) | Failure(error: E)
}
